=== FILE: README.md ===
# ISBN lookup backend, modelled in Dafny

This project models the Django backend of the ISBN library: the books API
that normalises and validates ISBNs, looks books up through a chain of
sources, logs each search, and answers HTTP requests with JSON envelopes.

- **ISBN rules** (`isbn.dfy`, module `Isbn`). Normalisation upper-cases the
  input and deletes every character outside `[0-9X]`. The ISBN-10 and ISBN-13
  check-digit validators then work as the service writes them, with a
  left-to-right accumulation loop. They are proved equal to the ISO 2108
  rules: the weighted sum modulo 11 (weights 10..1, `X` = 10) and the EAN-13
  sum modulo 10 (weights 1, 3, 1, ...). The service's `int(char)` raises
  `ValueError` on an `X` before the check position. The model carries this as
  a `Failure`, and it is proved to happen exactly there.
- **Lookup pipeline** (`search.dfy`, module `Search`). `search_book`
  rejects an invalid ISBN, then tries the cache, then the `Book` table, then
  Google Books, Open Library and WorldCat in that order.
  - The cache, the table and each source's outcome are inputs. An outcome is
    a record, nothing, or an exception.
  - The writes are part of the result: the search-history records, the
    cache writes and the created rows.
  - A write that raises inside the source loop is swallowed. If it raised
    after the `Book` row was created, the row stays. Every later source then
    fails on the unique `isbn` column, so the call ends as a miss.
- **Source mappers** (`mappers.dfy`, module `Mappers`). Each fetcher picks
  the fields of a book from an already-decoded reply. This covers
  `_extract_isbn`, the Open Library author, publisher and description picks,
  and the WorldCat publisher/date split.
- **Request serializer** (`serializers.dfy`, module `Serializers`). The
  `isbn` field is a `CharField` with the framework's defaults. It refuses
  `null`, booleans, lists and objects, reads a number as its text, trims the text,
  and applies the blank check, the 20-character limit and the
  null-character check. `validate_isbn` then deletes
  whitespace and hyphens and requires 10 or 13 characters.
- **Views** (`views.dfy`, module `Views`).
  - Status codes and envelopes of `search_book`, `validate_isbn` and
    `get_book_by_isbn`.
  - The `limit` query parameter of `list_recent_books` and `search_history`,
    parsed as Python's `int()` of a string and capped.
  - The search counts that `search_history` reports.
- Supporting modules:
  - `wrappers.dfy` holds `Option` and `Result`.
  - `text.dfy` holds `str.isspace`, filtering, `strip()`, and `split(sep)`
    with its inverse `join`.
  - `numbers.dfy` holds `int()` of a string, with its round trip through the
    decimal rendering. `int()` skips less whitespace than `strip()`: it
    refuses the ASCII separators U+001C to U+001F.
  - `models.dfy` holds the `Book` and `SearchHistory` rows.

An uncaught exception in a view is `ServerError`, which Django answers with
status 500. The Next.js frontend is a client of these endpoints and is out of
scope: for example, the book page fetches `GET books/<isbn>/`, shows the book
when `success` holds and the message otherwise, and reports "Network error"
when the fetch fails.

## Model

| member | source | states |
|---|---|---|
| Isbn.Normalize | book_search/books/services.py:24-27 | the normal form holds only digits and `X` and is no longer than the input |
| Isbn.NormalizeFixpoint | book_search/books/services.py:24-27 | a string is its own normal form exactly when it consists of digits and upper-case `X` |
| Isbn.NormalizeIdempotent | book_search/books/services.py:24-27 | normalising twice gives the same result as normalising once |
| Isbn.NormalizeCounts | book_search/books/services.py:24-27 | every digit survives as often as it occurs, lower- and upper-case `x` both survive as `X`, and nothing else survives |
| Isbn.NormalizeAppend | book_search/books/services.py:24-27 | the pieces of a string normalise independently |
| Isbn.CheckSum | book_search/books/services.py:44-45 | the accumulation succeeds exactly when every character is an ASCII digit; otherwise it fails at the first other character |
| Isbn.ValidateIsbn | book_search/books/services.py:29-37 | a normalised length other than 10 or 13 gives false |
| Isbn.ValidateIsbn10 | book_search/books/services.py:39-56 | a wrong length gives false; it raises exactly when a character other than an ASCII digit is among the first nine. On a normal form that character is an `X` |
| Isbn.Isbn10Rule | book_search/books/services.py:39-56 | on all-digit first nine characters, the verdict equals the ISO 2108 rule: the weighted sum with `X` as ten is divisible by 11 |
| Isbn.ValidateIsbn13 | book_search/books/services.py:58-73 | a wrong length gives false; it raises exactly when a character other than an ASCII digit is among the first twelve. On a normal form that character is an `X` |
| Isbn.Isbn13Rule | book_search/books/services.py:58-73 | on all-digit first twelve characters, the verdict equals the EAN-13 rule (weighted sum divisible by 10), and a trailing `X` is never valid |
| Isbn.ValidateIsbnSpec | book_search/books/services.py:29-73 | validation raises exactly when an `X` precedes the check position of a 10- or 13-character normal form; otherwise the verdict is the ISO 2108 ISBN-10 or ISBN-13 rule |
| Search.FirstStored | book_search/books/services.py:116-138 | the first source in list order whose attempt created a row, with no earlier one creating a row; none exactly when no attempt created one |
| Search.SearchBook | book_search/books/services.py:75-141 | raises exactly when validation raises; returns a book or a message, never both; writes exactly one history record for the normalised ISBN, marked found exactly when a book is returned; creates and caches at most one book; a miss caches only a row it created, and creates nothing unless some attempt broke after its create; a miss on a valid ISBN means neither cache nor table had it |
| Search.ValidationSeesNormalForm | book_search/books/services.py:77-81 | validating the normal form gives the same verdict as validating the raw input |
| Search.SearchSeesNormalForm | book_search/books/services.py:77-81 | the pipeline on a normalised ISBN answers as on the raw one |
| Search.SameNormalFormSameLookup | book_search/books/services.py:77-81 | two inputs with the same normal form get the same answer |
| Search.InvalidIsbnConsultsNothing | book_search/books/services.py:80-87 | an invalid ISBN gets "Invalid ISBN format" and one not-found record, whatever the cache, table and sources hold |
| Search.CacheHitWins | book_search/books/services.py:89-99 | a cached book is returned and logged with source "cache", and nothing is cached or created |
| Search.DatabaseHitIsSecond | book_search/books/services.py:101-113 | without a cache entry, the stored row is returned, cached, and logged with source "database" |
| Search.SourcesInOrder | book_search/books/services.py:115-141 | otherwise the first attempt in list order to create a row decides. If its writes succeeded, its record is the book, created, cached and logged under its data source. If a later write raised, the answer is "Book not found in any source" and the row, plus the cache entry if it was set, stays. With no row created, the answer is the same message and nothing else is written |
| Search.RaisingSourceIsSkipped | book_search/books/services.py:116-138 | a source whose attempt raised is treated exactly like one that found nothing |
| Mappers.ExtractIsbn | book_search/books/services.py:290-295 | the identifier of the first entry of the asked type; none when no entry has that type |
| Mappers.GoogleBooksRecord | book_search/books/services.py:143-191 | a record exactly when an API key is set, `totalItems` is positive and `items` is non-empty. It carries the first item's title (`''` by default), its ISBN-10 and ISBN-13 identifiers, and its authors (`[]` by default). Its subtitle, publisher, date, description, page count and thumbnail are copied as given, and the source is "Google Books" |
| Mappers.OpenLibraryAuthors | book_search/books/services.py:207-209 | one name per author, with `''` where the name is missing; no authors key gives no authors |
| Mappers.OpenLibraryPublisher | book_search/books/services.py:212-213 | the first publisher's name (`''` if unnamed); none exactly when there is no publisher |
| Mappers.OpenLibraryDescription | book_search/books/services.py:225 | a plain description is taken as is, and an object description yields its `value` |
| Mappers.OpenLibraryRecord | book_search/books/services.py:193-237 | a record exactly when the reply has the ISBN's entry. It carries the title, the authors and publisher picked as above, and the description picked from a plain or object value. The subtitle, date, page count and medium cover are copied as given. There are no ISBN-10 or ISBN-13 fields, and the source is "Open Library" |
| Mappers.SplitPublisherDate | book_search/books/services.py:265-273 | without a comma, the whole text and an empty date; with one, both parts are stripped and free of commas |
| Mappers.SplitPublisherDateSpec | book_search/books/services.py:268-271 | the publisher is the stripped text before the first comma and the date the stripped text after the last |
| Mappers.WorldCatRecord | book_search/books/services.py:239-288 | a record exactly when the title is non-empty, with at most one author, source "WorldCat", empty publisher and date without a publisher cell, and otherwise the two halves of `SplitPublisherDate` of the cell |
| Mappers.WorldCatPublisherCell | book_search/books/services.py:263-273 | in the record, a cell without a comma is the publisher with an empty date; with commas, the publisher is the stripped text before the first comma and the date the stripped text after the last |
| Text.Strip | book_search/book_search/books/serializers.py:32 | the stripped text neither starts nor ends with whitespace, and it is empty exactly when the input is all whitespace |
| Text.StripIsSlice | book_search/book_search/books/serializers.py:32 | the stripped text is a slice `s[i..j]` of the input, and everything outside `[i, j)` is whitespace |
| Text.StripKeepsNonSpace | book_search/book_search/books/serializers.py:32 | a character that is not whitespace occurs in the stripped text exactly when it occurs in the input |
| Text.Split | book_search/books/services.py:268 | at least one part; no part holds the separator; joining the parts gives the input back; a single part exactly when the separator does not occur |
| Serializers.Clean | book_search/book_search/books/serializers.py:36 | the cleaned value holds no whitespace and no hyphen and is no longer than the input |
| Serializers.CleanPiecewise | book_search/book_search/books/serializers.py:36 | cleaning deletes whitespace and hyphens and passes every other character through unchanged and in order |
| Serializers.CleanCounts | book_search/book_search/books/serializers.py:36 | every other character keeps its number of occurrences |
| Serializers.CleanFixpoint | book_search/book_search/books/serializers.py:36 | a value is clean exactly when it has no whitespace or hyphen, so cleaning is idempotent |
| Serializers.NormalizeAfterClean | book_search/book_search/books/serializers.py:36 | cleaning never changes the ISBN the service normalises from the value |
| Serializers.ValidateIsbnValue | book_search/book_search/books/serializers.py:30-41 | "ISBN cannot be empty" exactly for empty or all-whitespace input; "must be 10 or 13 digits long" exactly when the cleaned length is neither; otherwise the cleaned value, 10 or 13 long |
| Serializers.ValidateField | book_search/book_search/books/serializers.py:28-41 | an absent key, `null` and a non-string each fail with their own error. An all-whitespace text is blank. The length error is reported exactly when the trimmed text exceeds 20 characters, and the null-character error exactly when the text holds `\0`. A text is accepted exactly when it is not blank, at most 20 long after trimming, free of `\0`, and 10 or 13 long without whitespace and hyphens. The accepted value is exactly that |
| Serializers.AcceptedValueNormalizesAsRaw | book_search/book_search/books/serializers.py:30-41 | an accepted value normalises to the same ISBN as the raw input |
| Serializers.Messages | book_search/books/views.py:41-45 | the errors reported in the 400 body are the messages of the field's errors, one per error and in order |
| Serializers.MessagesDistinct | book_search/books/views.py:41-45 | two errors have the same message exactly when they are the same error |
| Numbers.Trim | book_search/books/views.py:135 | the text `int()` parses neither starts nor ends with the whitespace it skips, and is empty exactly when the input is all such whitespace |
| Numbers.TrimAgreesWithStrip | book_search/books/views.py:135 | on a text without the separators U+001C to U+001F, `int()` skips exactly the whitespace `str.strip()` removes |
| Numbers.SeparatorAtEndRefused | book_search/books/views.py:135 | a text with one of those separators at either end is refused by `int()` |
| Numbers.ParseInt | book_search/books/views.py:135 | after trimming the whitespace `int()` skips, a value exactly for an optional sign followed by an underscore-grouped digit run of at most 4300 digits; the value is the group's, negated after `-` |
| Numbers.ParseShowInt | book_search/books/views.py:135 | `int()` reads back the decimal rendering of every integer of at most 4300 digits, and refuses every longer one |
| Views.OrDefault | book_search/books/views.py:66 | a non-empty message is kept; an absent or empty one gives the default; never empty when the default is not |
| Views.SearchBookView | book_search/books/views.py:39-69 | 400 exactly when the serializer rejects the body, with "Invalid request data" and the messages of the serializer's errors, the same whatever the cache, table and sources hold; otherwise 200 with "Book found successfully" and the book, 404 with a non-empty message, or a server error exactly when validating the accepted value raises; `success` holds exactly for 200 |
| Views.SearchAnswer | book_search/books/views.py:54-69 | a server error exactly when the lookup raises; 200 exactly when it found a book |
| Views.SearchViewFollowsLookup | book_search/books/views.py:47-69 | for an accepted body, the answer follows the lookup on the raw input: its book with 200, its message with 404 |
| Views.ValidateIsbnView | book_search/books/views.py:82-98 | 400 exactly when the serializer rejects the body, with "Invalid request data" and the messages of the serializer's errors; otherwise a server error exactly when validating the accepted value raises, or 200 with `success` true, a normalised ISBN, and a message that is "ISBN is valid" exactly when `valid` holds |
| Views.ValidateViewIsCheckDigitRule | book_search/books/views.py:90-98 | for an accepted body, `valid` is the ISO 2108 rule on the normal form of the raw input, the echoed ISBN is that normal form, and a server error occurs exactly when an `X` precedes the check position |
| Views.GetBookView | book_search/books/views.py:108-123 | a stored row under the normalised ISBN is returned with 200 without validation; otherwise 200 with a book, 404 with a non-empty message, or a server error, which happens exactly when there is no stored row and validation raises |
| Views.GetBookFallsBackToLookup | book_search/books/views.py:108-118 | without a stored row, the endpoint finds a book exactly when the lookup does, and the same book; a miss is 404 with the lookup's message |
| Views.ClampLimit | book_search/books/views.py:133-138 | never above the cap; the default when absent or when `int()` refuses the text; otherwise the parsed value or the cap, whichever is smaller |
| Views.SeparatorLimitFallsBack | book_search/books/views.py:133-138 | a `limit` with a separator U+001C to U+001F at either end gives the default |
| Views.LimitOfNumber | book_search/books/views.py:157-162 | an integer of at most 4300 digits written in decimal is read back and capped; a longer one gives the default |
| Views.Page | book_search/books/views.py:140 | a prefix of the rows of length min(limit, number of rows) |
| Views.ListRecentBooks | book_search/books/views.py:133-146 | a 200 listing of the first min(limit, number of books) books, where limit is the clamped parameter, at most 100, with a count equal to the number listed |
| Views.RecentDefaultsToTwenty | book_search/books/views.py:133-140 | without a usable limit, the newest 20 books are listed, or all of them if there are fewer |
| Views.CountFound | book_search/books/views.py:169 | at most the number of records; zero exactly when none was found; all exactly when every one was |
| Views.CountFoundAppend | book_search/books/views.py:169 | the count of successes adds up over any split of the log |
| Views.SearchHistoryView | book_search/books/views.py:157-188 | a 200 page of the first min(limit, number of records) records, at most 200; the total is the size of the whole log, and the success count is the number of its found records |
| Views.HistoryDefaultsToFifty | book_search/books/views.py:157-164 | without a usable limit, the page is the newest 50 records, or all of them if there are fewer, with the counts over the whole log |
| Views.LookupIsCountedOnce | book_search/books/views.py:168-169 | every lookup that returns raises the total by one, and the success count by one exactly when it found a book |

## Left out

- The Next.js frontend, a client of the endpoints, including the book page's fetch of `GET books/<isbn>/`. The URL routing and the settings are left out too.
- Network access, JSON decoding and HTML parsing in the three fetchers. Their decoded results are inputs to the mappers.
  - Each fetcher catches its own exceptions. Whether each write of a source's attempt raises is part of the attempt's outcome in `Search.World`.
- Search.SearchBook: every cache and database call outside the source loop is assumed not to raise. These are the cache read, the table read, the history writes of the invalid and cache branches, the database branch's `cache.set` and history write (its `except` catches only `Book.DoesNotExist`), and the final history write. An exception in any of them would propagate to the view as a server error.
- The Django cache and database as services. They are the maps of `Search.World`.
  - The cache timeout of one hour is not represented.
- The API key: it is read from the settings and enters `Mappers.GoogleBooksRecord` as a parameter.
- Logging, wall-clock timing, `response_time_ms` and `search_time_ms`: they carry no decision.
- Book fields with no logic are not represented. These are categories, language, small thumbnail, preview and info links, rating fields, maturity rating, and the database-assigned id and timestamps. The declarative `BookSerializer`, `BookSearchResponseSerializer` and `SearchHistorySerializer` are left out too.
- The `success_rate` and average-response-time statistics of `search_history`: floating-point division, aggregation and rounding.
- Views.ListRecentBooks: a negative `limit` gives `None`. The code sets no lower bound, and what slicing a queryset with a negative bound does belongs to Django.
- Views.SearchHistoryView: a negative `limit` gives `None`, for the same reason.
- Numbers.ParseInt: `int()` is modelled for ASCII digits only. The Unicode decimal digits that Python also accepts are not modelled.
- Numbers.ParseInt: the 4300-digit limit is the default of Python 3.11 and later. An older interpreter converts longer texts, and there a long limit parameter is read and capped instead of falling back to the default.
- Isbn.CheckSum: `int(char)` is modelled for ASCII digits only. Python also accepts every other Unicode decimal digit, so on such a character the source sums where the model fails. Validation only ever passes normal forms, which hold no such character, so no answer of the service differs.
- Isbn.ValidateIsbn10: the same restriction to ASCII digits, through `Isbn.CheckSum`.
- Isbn.ValidateIsbn13: the same restriction to ASCII digits, through `Isbn.CheckSum`.
- Isbn.Normalize: upper-casing is modelled for ASCII letters only. No other letter can become a digit or `X`, so the normal form is unaffected.
- Serializers.ValidateField: a JSON number is given as the `Text` of its Python `str()`, which the field then validates like any other text.
- Serializers.ValidateField: the framework's surrogate-character check is not represented, because a Dafny `char` cannot be a surrogate.
- The health-check and not-found endpoints return constant bodies.
- Views.SearchBookView: the search-history writes of the lookup are stated on `Search.SearchBook`, not repeated on the view.
- Views.GetBookView: the same holds for the writes of the fallback lookup.

=== FILE: isbn.dfy ===
/**
  ISBN normalisation and check-digit validation of the lookup service
  (`ISBNService.normalize_isbn`, `validate_isbn`, `_validate_isbn10`,
  `_validate_isbn13`), and the check-digit rules of ISO 2108 they implement:
  ISBN-10 is a weighted sum modulo 11 with weights 10 down to 1 and `X`
  standing for ten; ISBN-13 is the EAN-13 weighted sum modulo 10 with weights
  alternating 1 and 3.
*/
module Isbn {
  import opened Wrappers
  import opened Text

  /** Python's `ValueError` from `int(c)` on a character that is not a digit. */
  datatype ConversionError = NotADigit(position: nat, c: char)

  // ---------------------------------------------------------------------------
  // normalize_isbn

  /** `str.upper()` on the characters that matter here: ASCII letters. */
  function Upper(c: char): (u: char) {
    if 'a' <= c <= 'z' then (c as int - 'a' as int + 'A' as int) as char else c
  }

  function UpperAll(s: string): (r: string)
    ensures |r| == |s| && forall i :: 0 <= i < |s| ==> r[i] == Upper(s[i])
  {
    seq(|s|, i requires 0 <= i < |s| => Upper(s[i]))
  }

  /** The characters the class `[0-9X]` matches. */
  predicate IsIsbnChar(c: char) {
    IsDigit(c) || c == 'X'
  }

  /** `normalize_isbn`: upper-case, then delete every character outside `[0-9X]`. */
  function Normalize(s: string): (r: string)
    ensures |r| <= |s|
    ensures forall i :: 0 <= i < |r| ==> IsIsbnChar(r[i])
  {
    Filter(UpperAll(s), IsIsbnChar)
  }

  /** Normalising is done piecewise: the pieces of a string normalise independently. */
  lemma {:induction false} NormalizeAppend(a: string, b: string)
    ensures Normalize(a + b) == Normalize(a) + Normalize(b)
  {
    assert UpperAll(a + b) == UpperAll(a) + UpperAll(b);
    FilterAppend(UpperAll(a), UpperAll(b), IsIsbnChar);
  }

  /** The normal forms are exactly the strings of digits and upper-case `X`. */
  lemma {:induction false} NormalizeFixpoint(s: string)
    ensures Normalize(s) == s <==> forall i :: 0 <= i < |s| ==> IsIsbnChar(s[i])
  {
    if forall i :: 0 <= i < |s| ==> IsIsbnChar(s[i]) {
      assert UpperAll(s) == s;
      FilterKeepsAll(s, IsIsbnChar);
    }
  }

  lemma {:induction false} NormalizeIdempotent(s: string)
    ensures Normalize(Normalize(s)) == Normalize(s)
  {
    NormalizeFixpoint(Normalize(s));
  }

  /**
    Nothing but separators and letters is lost: every digit survives as often
    as it occurs, and every `x` or `X` survives as `X`.
  */
  lemma {:induction false} NormalizeCounts(s: string, c: char)
    ensures IsDigit(c) ==> multiset(Normalize(s))[c] == multiset(s)[c]
    ensures multiset(Normalize(s))['X'] == multiset(s)['x'] + multiset(s)['X']
    ensures !IsIsbnChar(c) ==> multiset(Normalize(s))[c] == 0
  {
    FilterCount(UpperAll(s), IsIsbnChar, c);
    FilterCount(UpperAll(s), IsIsbnChar, 'X');
    UpperCounts(s, c);
  }

  lemma {:induction false} UpperCounts(s: string, c: char)
    ensures IsDigit(c) ==> multiset(UpperAll(s))[c] == multiset(s)[c]
    ensures multiset(UpperAll(s))['X'] == multiset(s)['x'] + multiset(s)['X']
  {
    if IsDigit(c) {
      UpperKeepsDigit(s, c);
    }
    UpperMergesX(s);
  }

  /** Upper-casing one character then the rest is upper-casing the whole. */
  lemma {:induction false} UpperAllCons(s: string)
    requires s != []
    ensures multiset(s) == multiset([s[0]]) + multiset(s[1..])
    ensures multiset(UpperAll(s)) == multiset([Upper(s[0])]) + multiset(UpperAll(s[1..]))
  {
    assert s == [s[0]] + s[1..];
    assert UpperAll(s) == [Upper(s[0])] + UpperAll(s[1..]);
  }

  lemma {:induction false} UpperKeepsDigit(s: string, c: char)
    requires IsDigit(c)
    ensures multiset(UpperAll(s))[c] == multiset(s)[c]
  {
    if s != [] {
      UpperKeepsDigit(s[1..], c);
      UpperAllCons(s);
    }
  }

  lemma {:induction false} UpperMergesX(s: string)
    ensures multiset(UpperAll(s))['X'] == multiset(s)['x'] + multiset(s)['X']
  {
    if s != [] {
      UpperMergesX(s[1..]);
      UpperAllCons(s);
      var c := s[0];
      assert multiset([Upper(c)])['X'] == multiset([c])['x'] + multiset([c])['X'];
    }
  }

  // ---------------------------------------------------------------------------
  // The accumulation loop shared by _validate_isbn10 and _validate_isbn13

  datatype Scheme = Isbn10 | Isbn13

  /** The factor the loop gives position `i`. */
  function Weight(scheme: Scheme, i: nat): (w: int) {
    match scheme
    case Isbn10 => 10 - i
    case Isbn13 => if i % 2 == 0 then 1 else 3
  }

  /**
    The `for i, char in enumerate(...)` loop: adds `int(char) * weight` from
    left to right, raising at the first character that is not a digit.
  */
  function CheckSum(s: string, scheme: Scheme): (r: Result<int, ConversionError>)
    ensures r.Failure? ==>
      && r.error.position < |s|
      && r.error.c == s[r.error.position]
      && !IsDigit(s[r.error.position])
      && forall j :: 0 <= j < r.error.position ==> IsDigit(s[j])
    ensures r.Success? <==> forall j :: 0 <= j < |s| ==> IsDigit(s[j])
  {
    if s == [] then Success(0)
    else
      var i := |s| - 1;
      match CheckSum(s[..i], scheme)
      case Failure(e) => Failure(e)
      case Success(acc) =>
        if IsDigit(s[i]) then Success(acc + DigitValue(s[i]) * Weight(scheme, i))
        else Failure(NotADigit(i, s[i]))
  }

  // ---------------------------------------------------------------------------
  // _validate_isbn10

  /** The character `str(11 - remainder)` and the two special cases pick. */
  function ExpectedCheck10(remainder: int): (check: char)
    requires 0 <= remainder < 11
  {
    if remainder == 0 then '0'
    else if remainder == 1 then 'X'
    else DigitChar(11 - remainder)
  }

  /** `_validate_isbn10`. */
  function ValidateIsbn10(s: string): (r: Result<bool, ConversionError>)
    ensures |s| != 10 ==> r == Success(false)
    ensures r.Failure? <==> |s| == 10 && exists i :: 0 <= i < 9 && !IsDigit(s[i])
    ensures r == Success(true) ==> |s| == 10 && IsIsbnChar(s[9])
  {
    if |s| != 10 then Success(false)
    else
      match CheckSum(s[..9], Isbn10)
      case Failure(e) => Failure(e)
      case Success(check) =>
        Success(s[9] == ExpectedCheck10(check % 11))
  }

  // ---------------------------------------------------------------------------
  // _validate_isbn13

  /** `_validate_isbn13`. */
  function ValidateIsbn13(s: string): (r: Result<bool, ConversionError>)
    ensures |s| != 13 ==> r == Success(false)
    ensures r.Failure? <==> |s| == 13 && exists i :: 0 <= i < 12 && !IsDigit(s[i])
    ensures r == Success(true) ==> |s| == 13 && IsDigit(s[12])
  {
    if |s| != 13 then Success(false)
    else
      match CheckSum(s[..12], Isbn13)
      case Failure(e) => Failure(e)
      case Success(check) =>
        var remainder := check % 10;
        Success(DigitChar((10 - remainder) % 10) == s[12])
  }

  // ---------------------------------------------------------------------------
  // validate_isbn

  /** `validate_isbn`: normalise, then dispatch on the length. */
  function ValidateIsbn(s: string): (r: Result<bool, ConversionError>)
    ensures var n := Normalize(s); |n| != 10 && |n| != 13 ==> r == Success(false)
  {
    var n := Normalize(s);
    if |n| == 10 then ValidateIsbn10(n)
    else if |n| == 13 then ValidateIsbn13(n)
    else Success(false)
  }

  // ---------------------------------------------------------------------------
  // ISO 2108, stated independently of the loop

  const Weights10: seq<int> := [10, 9, 8, 7, 6, 5, 4, 3, 2, 1]
  const Weights13: seq<int> := [1, 3, 1, 3, 1, 3, 1, 3, 1, 3, 1, 3, 1]

  /** The value a character contributes to a check equation; `X` is ten. */
  function CharValue(c: char): (v: int) {
    if IsDigit(c) then DigitValue(c) else if c == 'X' then 10 else 0
  }

  /** Σ values[i] · weights[i]. */
  function Dot(values: seq<int>, weights: seq<int>): (sum: int)
    requires |values| == |weights|
  {
    if values == [] then 0
    else Dot(values[..|values| - 1], weights[..|weights| - 1]) + values[|values| - 1] * weights[|weights| - 1]
  }

  function Values(s: string): (vs: seq<int>)
    ensures |vs| == |s| && forall i :: 0 <= i < |s| ==> vs[i] == CharValue(s[i])
  {
    seq(|s|, i requires 0 <= i < |s| => CharValue(s[i]))
  }

  /** An ISBN-10 per ISO 2108: nine digits, a digit or `X`, weighted sum ≡ 0 (mod 11). */
  predicate ValidIsbn10(s: string) {
    && |s| == 10
    && (forall i :: 0 <= i < 9 ==> IsDigit(s[i]))
    && IsIsbnChar(s[9])
    && Dot(Values(s), Weights10) % 11 == 0
  }

  /** An ISBN-13 per ISO 2108 (EAN-13): thirteen digits, weighted sum ≡ 0 (mod 10). */
  predicate ValidIsbn13(s: string) {
    && |s| == 13
    && (forall i :: 0 <= i < 13 ==> IsDigit(s[i]))
    && Dot(Values(s), Weights13) % 10 == 0
  }

  /** On digits, the loop computes the weighted sum with the scheme's weights. */
  lemma {:induction false} CheckSumIsDot(s: string, scheme: Scheme, weights: seq<int>)
    requires |s| <= |weights|
    requires forall i :: 0 <= i < |s| ==> IsDigit(s[i])
    requires forall i :: 0 <= i < |weights| ==> weights[i] == Weight(scheme, i)
    ensures CheckSum(s, scheme) == Success(Dot(Values(s), weights[..|s|]))
  {
    if s != [] {
      var i := |s| - 1;
      CheckSumIsDot(s[..i], scheme, weights);
      assert Values(s)[..i] == Values(s[..i]);
      assert weights[..|s|][..i] == weights[..i];
    }
  }

  /** The full ISBN-10 sum is the loop's sum plus the check character's value. */
  lemma {:induction false} Isbn10Total(s: string)
    requires |s| == 10 && forall i :: 0 <= i < 9 ==> IsDigit(s[i])
    ensures CheckSum(s[..9], Isbn10).Success?
    ensures Dot(Values(s), Weights10) == CheckSum(s[..9], Isbn10).value + CharValue(s[9])
  {
    forall i | 0 <= i < |Weights10|
      ensures Weights10[i] == Weight(Isbn10, i)
    {
    }
    CheckSumIsDot(s[..9], Isbn10, Weights10);
    assert Values(s)[..9] == Values(s[..9]);
    assert Weights10[..10] == Weights10;
  }

  /** The full ISBN-13 sum is the loop's sum plus the check digit's value. */
  lemma {:induction false} Isbn13Total(s: string)
    requires |s| == 13 && forall i :: 0 <= i < 12 ==> IsDigit(s[i])
    ensures CheckSum(s[..12], Isbn13).Success?
    ensures Dot(Values(s), Weights13) == CheckSum(s[..12], Isbn13).value + CharValue(s[12])
  {
    forall i | 0 <= i < |Weights13|
      ensures Weights13[i] == Weight(Isbn13, i)
    {
    }
    CheckSumIsDot(s[..12], Isbn13, Weights13);
    assert Values(s)[..12] == Values(s[..12]);
    assert Weights13[..13] == Weights13;
  }

  /** A sum is divisible by 11 exactly when the added value completes the remainder. */
  lemma {:induction false} CompletesRemainder11(partial: int, v: int)
    requires 0 <= v < 11
    ensures (partial + v) % 11 == 0 <==> v == (11 - partial % 11) % 11
  {
  }

  /** A sum is divisible by 10 exactly when the added value completes the remainder. */
  lemma {:induction false} CompletesRemainder10(partial: int, v: int)
    requires 0 <= v < 10
    ensures (partial + v) % 10 == 0 <==> v == (10 - partial % 10) % 10
  {
  }

  /** The ISBN-10 check character for a remainder is the one whose value completes it. */
  lemma {:induction false} ExpectedCheck10Value(remainder: int, c: char)
    requires 0 <= remainder < 11
    ensures c == ExpectedCheck10(remainder) <==> IsIsbnChar(c) && CharValue(c) == (11 - remainder) % 11
  {
    if IsDigit(c) {
      assert c == DigitChar(DigitValue(c));
    }
  }

  /** The ISBN-13 check digit for a remainder is the one whose value completes it. */
  lemma {:induction false} ExpectedCheck13Value(remainder: int, c: char)
    requires 0 <= remainder < 10
    ensures DigitChar((10 - remainder) % 10) == c <==> IsDigit(c) && CharValue(c) == (10 - remainder) % 10
  {
    if IsDigit(c) {
      assert c == DigitChar(DigitValue(c));
    }
  }

  /**
    The loop's ISBN-10 test is the ISO 2108 check: for ten characters whose
    first nine are digits, the check character is accepted exactly when the
    full weighted sum, `X` counting ten, is divisible by 11.
  */
  lemma {:induction false} Isbn10Rule(s: string)
    requires |s| == 10 && forall i :: 0 <= i < 9 ==> IsDigit(s[i])
    ensures ValidateIsbn10(s) == Success(ValidIsbn10(s))
  {
    Isbn10Total(s);
    var partial := CheckSum(s[..9], Isbn10).value;
    var accepted := s[9] == ExpectedCheck10(partial % 11);
    assert ValidateIsbn10(s) == Success(accepted);
    ExpectedCheck10Value(partial % 11, s[9]);
    CompletesRemainder11(partial, CharValue(s[9]));
  }

  /**
    The loop's ISBN-13 test is the EAN-13 check: for thirteen characters whose
    first twelve are digits, the last is accepted exactly when it is a digit
    and the full weighted sum is divisible by 10. A trailing `X` never passes.
  */
  lemma {:induction false} Isbn13Rule(s: string)
    requires |s| == 13 && forall i :: 0 <= i < 12 ==> IsDigit(s[i])
    ensures ValidateIsbn13(s) == Success(ValidIsbn13(s))
    ensures s[12] == 'X' ==> ValidateIsbn13(s) == Success(false)
  {
    Isbn13Total(s);
    var partial := CheckSum(s[..12], Isbn13).value;
    var accepted := DigitChar((10 - partial % 10) % 10) == s[12];
    assert ValidateIsbn13(s) == Success(accepted);
    ExpectedCheck13Value(partial % 10, s[12]);
    if IsDigit(s[12]) {
      CompletesRemainder10(partial, CharValue(s[12]));
    }
  }

  /**
    `validate_isbn` in full: it raises exactly when the normal form has the
    length of an ISBN and an `X` in a position `int()` converts; otherwise it
    answers whether the normal form is a valid ISBN-10 or ISBN-13.
  */
  lemma {:induction false} ValidateIsbnSpec(s: string)
    ensures var n := Normalize(s);
      ValidateIsbn(s).Failure? <==>
        (|n| == 10 && 'X' in n[..9]) || (|n| == 13 && 'X' in n[..12])
    ensures var n := Normalize(s);
      ValidateIsbn(s).Success? ==> (ValidateIsbn(s).value <==> ValidIsbn10(n) || ValidIsbn13(n))
  {
    var n := Normalize(s);
    if |n| == 10 {
      if forall i :: 0 <= i < 9 ==> IsDigit(n[i]) {
        Isbn10Rule(n);
        assert 'X' !in n[..9];
      } else {
        var i :| 0 <= i < 9 && !IsDigit(n[i]);
        assert n[..9][i] == 'X';
      }
    } else if |n| == 13 {
      if forall i :: 0 <= i < 12 ==> IsDigit(n[i]) {
        Isbn13Rule(n);
        assert 'X' !in n[..12];
      } else {
        var i :| 0 <= i < 12 && !IsDigit(n[i]);
        assert n[..12][i] == 'X';
      }
    }
  }
}

=== FILE: mappers.dfy ===
/**
  The pure parts of the three source fetchers of the lookup service: how each
  one picks the fields of a `Book` out of an already-decoded reply. The HTTP
  requests, JSON decoding and HTML parsing that produce those replies are not
  modelled; their results arrive here as values.
*/
module Mappers {
  import opened Wrappers
  import opened Text
  import opened Models

  // ---------------------------------------------------------------------------
  // _extract_isbn

  /** One entry of `industryIdentifiers`: its optional `type` and `identifier` keys. */
  datatype Identifier = Identifier(kind: Option<string>, id: Option<string>)

  /**
    `_extract_isbn`: the `identifier` of the first entry whose `type` is
    `kind`, or `None` when no entry has that type.
  */
  function ExtractIsbn(ids: seq<Identifier>, kind: string): (r: Option<string>)
    ensures (forall i :: 0 <= i < |ids| ==> ids[i].kind != Some(kind)) ==> r.None?
    ensures forall i :: (0 <= i < |ids| && ids[i].kind == Some(kind)
      && (forall j :: 0 <= j < i ==> ids[j].kind != Some(kind))) ==> r == ids[i].id
  {
    if ids == [] then None
    else if ids[0].kind == Some(kind) then ids[0].id
    else ExtractIsbn(ids[1..], kind)
  }

  // ---------------------------------------------------------------------------
  // _fetch_from_google_books

  /** The keys of a Google Books `volumeInfo` object that the fetcher reads. */
  datatype VolumeInfo = VolumeInfo(
    title: Option<string>,
    subtitle: Option<string>,
    authors: Option<seq<string>>,
    publisher: Option<string>,
    publishedDate: Option<string>,
    description: Option<string>,
    pageCount: Option<int>,
    identifiers: Option<seq<Identifier>>,
    thumbnail: Option<string>
  )

  /**
    The record `_fetch_from_google_books` returns: none without an API key,
    none unless `totalItems` is positive, none when `items` is empty (the
    `IndexError` is caught), otherwise the fields of the first item.
  */
  function GoogleBooksRecord(isbn: string, apiKey: Option<string>, totalItems: Option<int>, items: seq<VolumeInfo>): (r: Option<Book>)
    ensures r.Some? <==> apiKey.GetOr("") != "" && totalItems.GetOr(0) > 0 && |items| > 0
    ensures r.Some? ==>
      && r.value.isbn == isbn
      && r.value.title == items[0].title.GetOr("")
      && r.value.isbn10 == ExtractIsbn(items[0].identifiers.GetOr([]), "ISBN_10")
      && r.value.isbn13 == ExtractIsbn(items[0].identifiers.GetOr([]), "ISBN_13")
      && r.value.subtitle == items[0].subtitle
      && r.value.authors == items[0].authors.GetOr([])
      && r.value.publisher == items[0].publisher
      && r.value.publishedDate == items[0].publishedDate
      && r.value.description == items[0].description
      && r.value.pageCount == items[0].pageCount
      && r.value.thumbnail == items[0].thumbnail
      && r.value.dataSource == Some("Google Books")
  {
    if apiKey.GetOr("") == "" then None
    else if totalItems.GetOr(0) > 0 && |items| > 0 then
      var v := items[0];
      var ids := v.identifiers.GetOr([]);
      Some(Book(
        isbn := isbn,
        isbn10 := ExtractIsbn(ids, "ISBN_10"),
        isbn13 := ExtractIsbn(ids, "ISBN_13"),
        title := v.title.GetOr(""),
        subtitle := v.subtitle,
        authors := v.authors.GetOr([]),
        publisher := v.publisher,
        publishedDate := v.publishedDate,
        description := v.description,
        pageCount := v.pageCount,
        thumbnail := v.thumbnail,
        dataSource := Some("Google Books")))
    else None
  }

  // ---------------------------------------------------------------------------
  // _fetch_from_openlibrary

  /** An object with an optional `name` key (an author or a publisher). */
  datatype Named = Named(name: Option<string>)

  /** The `description` key: absent, a plain string, or an object with an optional `value`. */
  datatype Description = NoDescription | TextDescription(text: string) | ObjectDescription(value: Option<string>)

  /** The keys of an Open Library `ISBN:<isbn>` entry that the fetcher reads. */
  datatype OpenLibraryEntry = OpenLibraryEntry(
    title: Option<string>,
    subtitle: Option<string>,
    authors: Option<seq<Named>>,
    publishers: Option<seq<Named>>,
    publishDate: Option<string>,
    description: Description,
    pages: Option<int>,
    coverMedium: Option<string>
  )

  /** Every author's `name`, `''` where it is missing; no authors key gives no authors. */
  function OpenLibraryAuthors(authors: Option<seq<Named>>): (names: seq<string>)
    ensures authors.None? ==> names == []
    ensures authors.Some? ==> |names| == |authors.value|
    ensures authors.Some? ==> forall i :: 0 <= i < |names| ==>
      (authors.value[i].name.Some? ==> names[i] == authors.value[i].name.value)
      && (authors.value[i].name.None? ==> names[i] == "")
  {
    match authors
    case None => []
    case Some(list) => seq(|list|, i requires 0 <= i < |list| => list[i].name.GetOr(""))
  }

  /** The first publisher's `name` (`''` if it has none); `None` when there is no publisher. */
  function OpenLibraryPublisher(publishers: Option<seq<Named>>): (r: Option<string>)
    ensures r.None? <==> publishers.GetOr([]) == []
    ensures r.Some? ==> r.value == publishers.value[0].name.GetOr("")
  {
    var list := publishers.GetOr([]);
    if list == [] then None else Some(list[0].name.GetOr(""))
  }

  /** The description text, whether given plainly or as an object's `value`. */
  function OpenLibraryDescription(d: Description): (r: Option<string>)
    ensures d.NoDescription? ==> r.None?
    ensures d.TextDescription? ==> r == Some(d.text)
    ensures d.ObjectDescription? ==> r == d.value
  {
    match d
    case NoDescription => None
    case TextDescription(text) => Some(text)
    case ObjectDescription(value) => value
  }

  /** The record `_fetch_from_openlibrary` returns: one exactly when the reply has the entry. */
  function OpenLibraryRecord(isbn: string, entry: Option<OpenLibraryEntry>): (r: Option<Book>)
    ensures r.Some? <==> entry.Some?
    ensures r.Some? ==>
      && r.value.isbn == isbn
      && r.value.title == entry.value.title.GetOr("")
      && r.value.authors == OpenLibraryAuthors(entry.value.authors)
      && r.value.publisher == OpenLibraryPublisher(entry.value.publishers)
      && r.value.description == OpenLibraryDescription(entry.value.description)
      && r.value.isbn10.None? && r.value.isbn13.None?
      && r.value.subtitle == entry.value.subtitle
      && r.value.publishedDate == entry.value.publishDate
      && r.value.pageCount == entry.value.pages
      && r.value.thumbnail == entry.value.coverMedium
      && r.value.dataSource == Some("Open Library")
  {
    match entry
    case None => None
    case Some(e) =>
      Some(Book(
        isbn := isbn,
        isbn10 := None,
        isbn13 := None,
        title := e.title.GetOr(""),
        subtitle := e.subtitle,
        authors := OpenLibraryAuthors(e.authors),
        publisher := OpenLibraryPublisher(e.publishers),
        publishedDate := e.publishDate,
        description := OpenLibraryDescription(e.description),
        pageCount := e.pages,
        thumbnail := e.coverMedium,
        dataSource := Some("Open Library")))
  }

  // ---------------------------------------------------------------------------
  // _fetch_from_worldcat

  /**
    The publisher cell split: with at least one comma, the stripped text
    before the first comma and after the last; otherwise the whole text and
    an empty date.
  */
  function SplitPublisherDate(text: string): (r: (string, string))
    ensures ',' !in text ==> r == (text, "")
    ensures ',' in text ==> r.0 == Strip(r.0) && r.1 == Strip(r.1) && ',' !in r.0 && ',' !in r.1
  {
    PublisherDate(text, Split(text, ','))
  }

  /** The publisher and date from the comma-separated `parts` of `text`. */
  function PublisherDate(text: string, parts: seq<string>): (r: (string, string))
    requires |parts| >= 1 && forall i :: 0 <= i < |parts| ==> ',' !in parts[i]
    requires |parts| == 1 <==> ',' !in text
    ensures ',' !in text ==> r == (text, "")
    ensures ',' in text ==> r.0 == Strip(r.0) && r.1 == Strip(r.1) && ',' !in r.0 && ',' !in r.1
  {
    if |parts| >= 2 then FirstAndLast(parts) else (text, "")
  }

  /** The stripped first and last parts; stripping them again, or looking for a comma, finds nothing. */
  function FirstAndLast(parts: seq<string>): (r: (string, string))
    requires |parts| >= 1 && ',' !in parts[0] && ',' !in parts[|parts| - 1]
    ensures r.0 == Strip(r.0) && r.1 == Strip(r.1) && ',' !in r.0 && ',' !in r.1
  {
    var first := parts[0];
    var last := parts[|parts| - 1];
    StripIdempotent(first);
    StripIdempotent(last);
    StripKeepsOut(first, ',');
    StripKeepsOut(last, ',');
    (Strip(first), Strip(last))
  }

  /**
    With a comma at position `first` and none before it, and a comma at
    position `last` and none after it, the publisher is the stripped text
    before `first` and the date the stripped text after `last`.
  */
  lemma {:induction false} SplitPublisherDateSpec(text: string, first: nat, last: nat)
    requires first <= last < |text| && text[first] == ',' && text[last] == ','
    requires ',' !in text[..first] && ',' !in text[last + 1..]
    ensures SplitPublisherDate(text) == (Strip(text[..first]), Strip(text[last + 1..]))
  {
    var parts := Split(text, ',');
    assert text[first] in text;
    SplitFirstIsBeforeFirstComma(text, first);
    SplitLastIsAfterLastComma(text, last);
    SplitPublisherDateOfParts(text, parts, text[..first], text[last + 1..]);
  }

  lemma {:induction false} SplitPublisherDateOfParts(text: string, parts: seq<string>, a: string, b: string)
    requires |parts| >= 2 && forall i :: 0 <= i < |parts| ==> ',' !in parts[i]
    requires ',' in text
    requires parts[0] == a && parts[|parts| - 1] == b
    ensures PublisherDate(text, parts) == (Strip(a), Strip(b))
  {
  }

  lemma {:induction false} SplitFirstIsBeforeFirstComma(text: string, first: nat)
    requires first < |text| && text[first] == ',' && ',' !in text[..first]
    ensures Split(text, ',')[0] == text[..first]
  {
    assert text[first] in text;
    SplitFirst(text, ',');
  }

  lemma {:induction false} SplitLastIsAfterLastComma(text: string, last: nat)
    requires last < |text| && text[last] == ',' && ',' !in text[last + 1..]
    ensures var parts := Split(text, ','); parts[|parts| - 1] == text[last + 1..]
  {
    assert text[last] in text;
    SplitLast(text, ',');
  }

  /**
    The record `_fetch_from_worldcat` returns from the scraped title, author
    link text and publisher cell text: one exactly when the title is not
    empty, with at most one author.
  */
  function WorldCatRecord(isbn: string, title: string, author: Option<string>, publisherCell: Option<string>): (r: Option<Book>)
    ensures r.Some? <==> title != ""
    ensures r.Some? ==>
      && r.value.isbn == isbn
      && r.value.title == title
      && |r.value.authors| <= 1
      && (author.Some? ==> r.value.authors == [author.value])
      && (author.None? ==> r.value.authors == [])
      && (publisherCell.None? ==> r.value.publisher == Some("") && r.value.publishedDate == Some(""))
      && (publisherCell.Some? ==>
            && r.value.publisher == Some(SplitPublisherDate(publisherCell.value).0)
            && r.value.publishedDate == Some(SplitPublisherDate(publisherCell.value).1))
      && r.value.dataSource == Some("WorldCat")
  {
    var (publisher, date) := match publisherCell
      case None => ("", "")
      case Some(text) => SplitPublisherDate(text);
    if title == "" then None
    else
      Some(Book(
        isbn := isbn,
        isbn10 := None,
        isbn13 := None,
        title := title,
        subtitle := None,
        authors := match author case None => [] case Some(a) => [a],
        publisher := Some(publisher),
        publishedDate := Some(date),
        description := None,
        pageCount := None,
        thumbnail := None,
        dataSource := Some("WorldCat")))
  }

  /**
    The publisher cell as the record shows it: without a comma, the whole
    cell and an empty date; with commas, the stripped text before the first
    one and after the last one.
  */
  lemma {:induction false} WorldCatPublisherCell(isbn: string, title: string, author: Option<string>, text: string, first: nat, last: nat)
    requires title != ""
    ensures var r := WorldCatRecord(isbn, title, author, Some(text));
      ',' !in text ==> r.value.publisher == Some(text) && r.value.publishedDate == Some("")
    ensures var r := WorldCatRecord(isbn, title, author, Some(text));
      (first <= last < |text| && text[first] == ',' && text[last] == ','
        && ',' !in text[..first] && ',' !in text[last + 1..]) ==>
        r.value.publisher == Some(Strip(text[..first])) && r.value.publishedDate == Some(Strip(text[last + 1..]))
  {
    if first <= last < |text| && text[first] == ',' && text[last] == ','
      && ',' !in text[..first] && ',' !in text[last + 1..] {
      SplitPublisherDateSpec(text, first, last);
    }
  }
}

=== FILE: models.dfy ===
/**
  The two stored records: a book and the log line written for each search.
  Database-assigned fields (`id`, `created_at`, `updated_at`, `search_time`)
  and the measured `response_time_ms` carry no logic and are not represented.
*/
module Models {
  import opened Wrappers

  /** A `Book` row, equally the field dictionary a source hands to `Book.objects.create`. */
  datatype Book = Book(
    isbn: string,
    isbn10: Option<string>,
    isbn13: Option<string>,
    title: string,
    subtitle: Option<string>,
    authors: seq<string>,
    publisher: Option<string>,
    publishedDate: Option<string>,
    description: Option<string>,
    pageCount: Option<int>,
    thumbnail: Option<string>,
    dataSource: Option<string>
  )

  /** A `SearchHistory` row. */
  datatype SearchRecord = SearchRecord(isbn: string, found: bool, dataSource: Option<string>)
}

=== FILE: numbers.dfy ===
/**
  Python's `int(text)` for a `str` argument in base 10, and the decimal
  rendering of an integer that it reads back. Used for the `limit` query
  parameter. The interpreter's default limit on the length of a decimal
  conversion (4300 digits, from Python 3.11 on) is part of `int()` here.
*/
module Numbers {
  import opened Wrappers
  import opened Text

  /**
    The digit part `int()` accepts: decimal digits, optionally grouped by
    single underscores between digits (`"1_000"`).
  */
  predicate IsDigitGroup(s: string) {
    && |s| >= 1
    && IsDigit(s[0])
    && IsDigit(s[|s| - 1])
    && (forall i :: 0 <= i < |s| ==> IsDigit(s[i]) || s[i] == '_')
    && NoDoubleUnderscore(s)
  }

  predicate NoDoubleUnderscore(s: string) {
    |s| < 2 || (!(s[0] == '_' && s[1] == '_') && NoDoubleUnderscore(s[1..]))
  }

  /** The value of a string of decimal digits, most significant first. */
  function DecimalValue(ds: string): (n: nat)
    requires forall i :: 0 <= i < |ds| ==> IsDigit(ds[i])
  {
    if ds == [] then 0 else DecimalValue(ds[..|ds| - 1]) * 10 + DigitValue(ds[|ds| - 1])
  }

  function GroupValue(s: string): (v: nat)
    requires IsDigitGroup(s)
  {
    DecimalValue(Filter(s, IsDigit))
  }

  /** The digits of a group, not counting its underscores. */
  function DigitCount(s: string): (n: nat) {
    |Filter(s, IsDigit)|
  }

  /**
    `sys.get_int_max_str_digits()` at its default: `int()` refuses a decimal
    text with more digits than this.
  */
  const MaxStrDigits: nat := 4300

  /** A digit group `int()` agrees to convert. */
  predicate Convertible(s: string) {
    IsDigitGroup(s) && DigitCount(s) <= MaxStrDigits
  }

  // ---------------------------------------------------------------------------
  // The whitespace around a number

  /** The ASCII information separators U+001C to U+001F, which `str.isspace` accepts. */
  predicate IsSeparator(c: char) {
    '\U{1C}' <= c <= '\U{1F}'
  }

  /**
    The whitespace `int()` skips around a number. A character beyond ASCII
    that `str.isspace` accepts is read as a space, but within ASCII only the
    space and `\t` to `\r` are skipped: a separator, which `str.strip()`
    would remove, makes the text invalid.
  */
  predicate IntSpace(c: char) {
    IsSpace(c) && !IsSeparator(c)
  }

  function TrimStart(s: string): (r: string)
    ensures |r| <= |s| && r == s[|s| - |r|..]
    ensures forall i :: 0 <= i < |s| - |r| ==> IntSpace(s[i])
    ensures r != [] ==> !IntSpace(r[0])
  {
    if s != [] && IntSpace(s[0]) then TrimStart(s[1..]) else s
  }

  function TrimEnd(s: string): (r: string)
    ensures |r| <= |s| && r == s[..|r|]
    ensures forall i :: |r| <= i < |s| ==> IntSpace(s[i])
    ensures r != [] ==> !IntSpace(r[|r| - 1])
  {
    if s != [] && IntSpace(s[|s| - 1]) then TrimEnd(s[..|s| - 1]) else s
  }

  /** The text `int()` parses: `s` without the `IntSpace` characters at either end. */
  function Trim(s: string): (r: string)
    ensures r != [] ==> !IntSpace(r[0]) && !IntSpace(r[|r| - 1])
    ensures r == [] <==> forall i :: 0 <= i < |s| ==> IntSpace(s[i])
  {
    TrimBothEnds(s);
    TrimEnd(TrimStart(s))
  }

  lemma {:induction false} TrimBothEnds(s: string)
    ensures var r := TrimEnd(TrimStart(s));
      && (r != [] ==> !IntSpace(r[0]) && !IntSpace(r[|r| - 1]))
      && (r == [] <==> forall i :: 0 <= i < |s| ==> IntSpace(s[i]))
  {
    var t := TrimStart(s);
    var r := TrimEnd(t);
    if r == [] {
      assert t == [];
    } else {
      assert r[0] == t[0];
      assert !IntSpace(s[|s| - |t|]);
    }
  }

  /** Trimming leaves a text that neither starts nor ends with such whitespace unchanged. */
  lemma {:induction false} TrimUnchanged(s: string)
    requires s != [] && !IntSpace(s[0]) && !IntSpace(s[|s| - 1])
    ensures Trim(s) == s
  {
    assert TrimStart(s) == s;
    assert TrimEnd(s) == s;
  }

  /** Without separators, `int()` skips exactly what `str.strip()` removes. */
  lemma {:induction false} TrimAgreesWithStrip(s: string)
    requires forall i :: 0 <= i < |s| ==> !IsSeparator(s[i])
    ensures Trim(s) == Strip(s)
  {
    TrimStartAgrees(s);
    var t := StripStart(s);
    assert forall i :: 0 <= i < |t| ==> t[i] == s[|s| - |t| + i];
    TrimEndAgrees(t);
  }

  lemma {:induction false} TrimStartAgrees(s: string)
    requires forall i :: 0 <= i < |s| ==> !IsSeparator(s[i])
    ensures TrimStart(s) == StripStart(s)
  {
    if s != [] {
      assert forall i :: 0 <= i < |s[1..]| ==> s[1..][i] == s[i + 1];
      TrimStartAgrees(s[1..]);
    }
  }

  lemma {:induction false} TrimEndAgrees(s: string)
    requires forall i :: 0 <= i < |s| ==> !IsSeparator(s[i])
    ensures TrimEnd(s) == StripEnd(s)
  {
    if s != [] {
      TrimEndAgrees(s[..|s| - 1]);
    }
  }

  /** A separator at either end is not skipped, so `int()` refuses the text. */
  lemma {:induction false} SeparatorAtEndRefused(s: string)
    requires s != [] && (IsSeparator(s[0]) || IsSeparator(s[|s| - 1]))
    ensures ParseInt(s) == None
  {
    var t := Trim(s);
    SeparatorSurvivesTrim(s, TrimStart(s), t);
    NotANumber(t);
  }

  /** A separator at an end of `s` is still at that end of the trimmed text, if any is left. */
  lemma {:induction false} SeparatorSurvivesTrim(s: string, u: string, t: string)
    requires s != [] && (IsSeparator(s[0]) || IsSeparator(s[|s| - 1]))
    requires u == TrimStart(s) && t == TrimEnd(u)
    ensures t == [] || IsSeparator(t[0]) || IsSeparator(t[|t| - 1])
  {
    if IsSeparator(s[0]) {
      LeadingSeparatorStays(s, t);
    } else {
      TrailingSeparatorStays(s, u, t);
    }
  }

  lemma {:induction false} LeadingSeparatorStays(s: string, t: string)
    requires s != [] && IsSeparator(s[0]) && t == TrimEnd(TrimStart(s))
    ensures t == [] || t[0] == s[0]
  {
    assert !IntSpace(s[0]);
    assert TrimStart(s) == s;
  }

  lemma {:induction false} TrailingSeparatorStays(s: string, u: string, t: string)
    requires s != [] && IsSeparator(s[|s| - 1]) && u == TrimStart(s) && t == TrimEnd(u)
    ensures t == [] || t[|t| - 1] == s[|s| - 1]
  {
    if u != [] {
      assert u[|u| - 1] == s[|s| - 1];
      assert !IntSpace(u[|u| - 1]);
      assert t == u;
    }
  }

  /** A text that is empty or has a separator at an end is no number. */
  lemma {:induction false} NotANumber(t: string)
    requires t == [] || IsSeparator(t[0]) || IsSeparator(t[|t| - 1])
    ensures ParseStripped(t) == None
  {
    if t != [] && IsSeparator(t[|t| - 1]) && |t| >= 2 {
      assert t[1..][|t| - 2] == t[|t| - 1];
    }
  }

  /**
    Python `int(text)`: surrounding `IntSpace` whitespace is ignored, an optional sign
    may lead, and the rest must be a digit group of at most `MaxStrDigits`
    digits; anything else raises `ValueError`, which is `None` here.
  */
  function ParseInt(text: string): (r: Option<int>)
    ensures var t := Trim(text);
      r.Some? <==> Convertible(t) || (t != [] && (t[0] == '+' || t[0] == '-') && Convertible(t[1..]))
    ensures var t := Trim(text);
      r.Some? && t[0] != '+' && t[0] != '-' ==> r.value == GroupValue(t)
    ensures var t := Trim(text);
      r.Some? && t[0] == '+' ==> r.value == GroupValue(t[1..])
    ensures var t := Trim(text);
      r.Some? && t[0] == '-' ==> r.value == -(GroupValue(t[1..]) as int)
  {
    ParseStrippedCases(Trim(text));
    ParseStripped(Trim(text))
  }

  lemma {:induction false} ParseStrippedCases(t: string)
    ensures var r := ParseStripped(t);
      && (r.Some? <==> Convertible(t) || (t != [] && (t[0] == '+' || t[0] == '-') && Convertible(t[1..])))
      && (r.Some? && t[0] != '+' && t[0] != '-' ==> r.value == GroupValue(t))
      && (r.Some? && t[0] == '+' ==> r.value == GroupValue(t[1..]))
      && (r.Some? && t[0] == '-' ==> r.value == -(GroupValue(t[1..]) as int))
  {
  }

  function ParseStripped(t: string): (r: Option<int>) {
    var signed := t != [] && (t[0] == '-' || t[0] == '+');
    var body := if signed then t[1..] else t;
    if Convertible(body) then
      var v: int := GroupValue(body);
      Some(if signed && t[0] == '-' then -v else v)
    else None
  }

  /** The decimal rendering of a natural number: its digits, no leading zeros. */
  function ShowNat(n: nat): (s: string)
    ensures |s| >= 1
    ensures forall i :: 0 <= i < |s| ==> IsDigit(s[i])
  {
    if n < 10 then [DigitChar(n)] else ShowNat(n / 10) + [DigitChar(n % 10)]
  }

  /** The decimal rendering of an integer, with a leading `-` when negative. */
  function ShowInt(n: int): (s: string) {
    if n < 0 then "-" + ShowNat(-n) else ShowNat(n)
  }

  lemma {:induction false} DecimalValueShowNat(n: nat)
    ensures DecimalValue(ShowNat(n)) == n
  {
    if n >= 10 {
      var s := ShowNat(n);
      DecimalValueShowNat(n / 10);
      assert s[..|s| - 1] == ShowNat(n / 10);
    }
  }

  /**
    `int()` reads back the rendering of every integer of at most
    `MaxStrDigits` digits, and refuses every longer one.
  */
  lemma {:induction false} ParseShowInt(n: int)
    ensures var m: nat := if n < 0 then -n else n;
      ParseInt(ShowInt(n)) == if |ShowNat(m)| <= MaxStrDigits then Some(n) else None
  {
    if n < 0 {
      var m: nat := -n;
      assert ShowInt(n) == "-" + ShowNat(m);
      ParseShowNegative(m);
    } else {
      assert ShowInt(n) == ShowNat(n);
      ParseShowNat(n);
    }
  }

  lemma {:induction false} ParseShowNat(m: nat)
    ensures ParseInt(ShowNat(m)) == if |ShowNat(m)| <= MaxStrDigits then Some(m as int) else None
  {
    DecimalValueShowNat(m);
    ParseUnsigned(ShowNat(m), m);
  }

  lemma {:induction false} ParseShowNegative(m: nat)
    requires m > 0
    ensures ParseInt("-" + ShowNat(m)) == if |ShowNat(m)| <= MaxStrDigits then Some(-(m as int)) else None
  {
    DecimalValueShowNat(m);
    ParseSigned(ShowNat(m), m);
  }

  lemma {:induction false} ParseUnsigned(digits: string, v: int)
    requires |digits| >= 1 && forall i :: 0 <= i < |digits| ==> IsDigit(digits[i])
    requires v == DecimalValue(digits)
    ensures ParseInt(digits) == if |digits| <= MaxStrDigits then Some(v) else None
  {
    TrimUnchanged(digits);
    ParseDigits(digits);
  }

  lemma {:induction false} ParseSigned(digits: string, v: int)
    requires |digits| >= 1 && forall i :: 0 <= i < |digits| ==> IsDigit(digits[i])
    requires v == DecimalValue(digits)
    ensures ParseInt("-" + digits) == if |digits| <= MaxStrDigits then Some(-v) else None
  {
    var s := "-" + digits;
    TrimUnchanged(s);
    ParseDigits(digits);
    ParseNegative(s, digits);
  }

  /** A plain run of digits is a digit group of that many digits whose value is its decimal value. */
  lemma {:induction false} ParseDigits(digits: string)
    requires |digits| >= 1 && forall i :: 0 <= i < |digits| ==> IsDigit(digits[i])
    ensures IsDigitGroup(digits) && DigitCount(digits) == |digits| && GroupValue(digits) == DecimalValue(digits)
  {
    DigitsHaveNoUnderscore(digits);
    FilterKeepsAll(digits, IsDigit);
  }

  lemma {:induction false} ParseNegative(t: string, digits: string)
    requires t != [] && t[0] == '-' && t[1..] == digits && IsDigitGroup(digits)
    ensures ParseStripped(t) == if DigitCount(digits) <= MaxStrDigits then Some(-(GroupValue(digits) as int)) else None
  {
  }

  lemma {:induction false} DigitsHaveNoUnderscore(s: string)
    requires forall i :: 0 <= i < |s| ==> IsDigit(s[i])
    ensures NoDoubleUnderscore(s)
  {
    if |s| >= 2 {
      DigitsHaveNoUnderscore(s[1..]);
    }
  }
}

=== FILE: search.dfy ===
/**
  `ISBNService.search_book`: the lookup pipeline. After normalising and
  validating the ISBN it consults the cache, then the database, then the
  external sources in the fixed order Google Books, Open Library, WorldCat;
  the first hit wins, and every call that returns logs exactly one search
  record. The cache, the database and each source's reply are inputs here,
  and the writes the call makes are part of its result.
*/
module Search {
  import opened Wrappers
  import opened Models
  import Isbn

  /** The external sources, in the order `self.sources` lists them. */
  datatype Source = GoogleBooks | OpenLibrary | WorldCat

  const Sources: seq<Source> := [GoogleBooks, OpenLibrary, WorldCat]

  /**
    One pass of the loop body for one source. The fetchers catch their own
    errors, so what can raise inside the `try` are the writes:
    `Book.objects.create`, then `cache.set`, then the history write.
    `Raised` is an exception before the row exists, which leaves no trace.
    `Returned` is the fetcher's record or nothing, where a record's writes
    all succeeded. `BrokeAfterCreate` is a record whose row was created
    before `cache.set` (`cached` false) or the history write (`cached`
    true) raised: the row stays, and the loop goes on.
  */
  datatype Attempt = Raised | Returned(data: Option<Book>) | BrokeAfterCreate(row: Book, cached: bool)

  /** A record was returned and stored: the loop stops here. */
  predicate Hit(a: Attempt) {
    a.Returned? && a.data.Some?
  }

  /** The attempt created a `Book` row, whether or not its later writes succeeded. */
  predicate Stores(a: Attempt) {
    Hit(a) || a.BrokeAfterCreate?
  }

  /** What the loop makes of an attempt: one that raised is taken like one that found nothing. */
  function Effect(a: Attempt): (r: Attempt)
    ensures !r.Raised?
    ensures a.Raised? ==> r == Returned(None)
    ensures !a.Raised? ==> r == a
  {
    if a.Raised? then Returned(None) else a
  }

  /**
    The state the pipeline reads: the cache and the `Book` table, keyed by
    normalised ISBN, and what each source's attempt yields for an ISBN.
  */
  datatype World = World(
    cache: map<string, Book>,
    db: map<string, Book>,
    fetch: (Source, string) -> Attempt
  )

  /** The writes one call makes, in order of kind. */
  datatype Writes = Writes(history: seq<SearchRecord>, cached: seq<Book>, created: seq<Book>)

  /** The pair `(book, error_message)` the call returns, with the writes it made. */
  datatype Lookup = Lookup(book: Option<Book>, error: Option<string>, writes: Writes)

  /** The answer for a miss: no book, the message, and one `found=False` record. */
  function Miss(isbn: string, message: string): (r: Lookup) {
    Lookup(None, Some(message), Writes([SearchRecord(isbn, false, None)], [], []))
  }

  /**
    The index in `order` of the first source whose attempt created a row,
    or `None` when none did; attempts that raised or found nothing are
    passed over.
  */
  function FirstStored(fetch: (Source, string) -> Attempt, isbn: string, order: seq<Source>): (r: Option<nat>)
    ensures r.Some? ==> r.value < |order| && Stores(fetch(order[r.value], isbn))
    ensures r.Some? ==> forall j :: 0 <= j < r.value ==> !Stores(fetch(order[j], isbn))
    ensures r.None? <==> forall j :: 0 <= j < |order| ==> !Stores(fetch(order[j], isbn))
  {
    if order == [] then None
    else if Stores(fetch(order[0], isbn)) then Some(0)
    else
      match FirstStored(fetch, isbn, order[1..])
      case None => None
      case Some(i) => Some(i + 1)
  }

  /**
    `search_book`. It raises (`Failure`) exactly when `validate_isbn` does;
    every other call returns a book or an error message, never both, and
    writes one search record for the normalised ISBN whose `found` flag says
    whether a book came back.

    Every source builds its record under the normalised ISBN, and the
    `isbn` column is unique. So once an attempt has created the row, a later
    source's `Book.objects.create` raises and is passed over: the first
    attempt that stores decides the outcome, and if its later writes broke,
    the call ends as a miss that leaves the row behind.
  */
  function SearchBook(isbn: string, w: World): (r: Result<Lookup, Isbn.ConversionError>)
    ensures r.Failure? <==> Isbn.ValidateIsbn(Isbn.Normalize(isbn)).Failure?
    ensures r.Success? ==> (r.value.book.Some? <==> r.value.error.None?)
    ensures r.Success? ==>
      && |r.value.writes.history| == 1
      && r.value.writes.history[0].isbn == Isbn.Normalize(isbn)
      && (r.value.writes.history[0].found <==> r.value.book.Some?)
    ensures r.Success? ==> |r.value.writes.created| <= 1 && |r.value.writes.cached| <= 1
    ensures r.Success? && r.value.book.None? ==> r.value.writes.cached <= r.value.writes.created
    ensures r.Success? && r.value.book.None? && (forall s: Source :: !w.fetch(s, Isbn.Normalize(isbn)).BrokeAfterCreate?) ==>
      r.value.writes.cached == [] && r.value.writes.created == []
    ensures r.Success? && r.value.book.None? ==>
      r.value.error == Some("Invalid ISBN format") || r.value.error == Some("Book not found in any source")
    ensures r.Success? ==> (r.value.error == Some("Invalid ISBN format") <==> Isbn.ValidateIsbn(isbn) == Success(false))
    ensures r.Success? && r.value.book.None? && Isbn.ValidateIsbn(isbn) == Success(true) ==>
      Isbn.Normalize(isbn) !in w.cache && Isbn.Normalize(isbn) !in w.db
  {
    var key := Isbn.Normalize(isbn);
    ValidationSeesNormalForm(isbn);
    match Isbn.ValidateIsbn(key)
    case Failure(e) => Failure(e)
    case Success(valid) =>
      if !valid then Success(Miss(key, "Invalid ISBN format"))
      else if key in w.cache then
        Success(Lookup(Some(w.cache[key]), None, Writes([SearchRecord(key, true, Some("cache"))], [], [])))
      else if key in w.db then
        var book := w.db[key];
        Success(Lookup(Some(book), None, Writes([SearchRecord(key, true, Some("database"))], [book], [])))
      else
        match FirstStored(w.fetch, key, Sources)
        case None => Success(Miss(key, "Book not found in any source"))
        case Some(i) => Success(Stored(key, w.fetch(Sources[i], key)))
  }

  /** The outcome once `attempt`, the first to create the row, has run. */
  function Stored(key: string, attempt: Attempt): (r: Lookup)
    requires Stores(attempt)
  {
    match attempt
    case Returned(data) =>
      var book := data.value;
      var record := SearchRecord(key, true, Some(book.dataSource.GetOr("unknown")));
      Lookup(Some(book), None, Writes([record], [book], [book]))
    case BrokeAfterCreate(book, cached) =>
      Lookup(None, Some("Book not found in any source"),
        Writes([SearchRecord(key, false, None)], if cached then [book] else [], [book]))
  }

  /** The verdict on the ISBN is the same whether or not the caller normalised it first. */
  lemma {:induction false} ValidationSeesNormalForm(isbn: string)
    ensures Isbn.ValidateIsbn(Isbn.Normalize(isbn)) == Isbn.ValidateIsbn(isbn)
  {
    Isbn.NormalizeIdempotent(isbn);
  }

  /** Calling the pipeline on an already-normalised ISBN changes nothing. */
  lemma {:induction false} SearchSeesNormalForm(isbn: string, w: World)
    ensures SearchBook(Isbn.Normalize(isbn), w) == SearchBook(isbn, w)
  {
    Isbn.NormalizeIdempotent(isbn);
  }

  /** The pipeline sees an ISBN only through its normal form. */
  lemma {:induction false} SameNormalFormSameLookup(a: string, b: string, w: World)
    requires Isbn.Normalize(a) == Isbn.Normalize(b)
    ensures SearchBook(a, w) == SearchBook(b, w)
  {
  }

  /**
    An ISBN that fails validation is answered with "Invalid ISBN format"
    whatever the cache, database and sources hold, and nothing but the
    `found=False` record is written.
  */
  lemma {:induction false} InvalidIsbnConsultsNothing(isbn: string, w: World)
    requires Isbn.ValidateIsbn(isbn) == Success(false)
    ensures SearchBook(isbn, w) == Success(Miss(Isbn.Normalize(isbn), "Invalid ISBN format"))
  {
    ValidationSeesNormalForm(isbn);
  }

  /** A cached book is returned as is: nothing is cached or created. */
  lemma {:induction false} CacheHitWins(isbn: string, w: World)
    requires Isbn.ValidateIsbn(isbn) == Success(true)
    requires Isbn.Normalize(isbn) in w.cache
    ensures var key := Isbn.Normalize(isbn);
      SearchBook(isbn, w) == Success(Lookup(Some(w.cache[key]), None,
        Writes([SearchRecord(key, true, Some("cache"))], [], [])))
  {
    ValidationSeesNormalForm(isbn);
  }

  /** Without a cache entry, a database row is returned and put in the cache. */
  lemma {:induction false} DatabaseHitIsSecond(isbn: string, w: World)
    requires Isbn.ValidateIsbn(isbn) == Success(true)
    requires Isbn.Normalize(isbn) !in w.cache && Isbn.Normalize(isbn) in w.db
    ensures var key := Isbn.Normalize(isbn);
      SearchBook(isbn, w) == Success(Lookup(Some(w.db[key]), None,
        Writes([SearchRecord(key, true, Some("database"))], [w.db[key]], [])))
  {
    ValidationSeesNormalForm(isbn);
  }

  /**
    Without a cache entry or database row, the first source in list order
    whose attempt created a row decides. If all its writes succeeded, its
    record is the book, created, cached and logged under its
    `data_source`. If a later write of that attempt raised, the answer is
    "Book not found in any source", whatever later sources hold, and the
    row (and the cache entry, if `cache.set` got through) stays. With no
    row created at all the answer is the same message and nothing else is
    written.
  */
  lemma {:induction false} SourcesInOrder(isbn: string, w: World)
    requires Isbn.ValidateIsbn(isbn) == Success(true)
    requires Isbn.Normalize(isbn) !in w.cache && Isbn.Normalize(isbn) !in w.db
    ensures var key := Isbn.Normalize(isbn);
      (forall j :: 0 <= j < |Sources| ==> !Stores(w.fetch(Sources[j], key))) ==>
        SearchBook(isbn, w) == Success(Miss(key, "Book not found in any source"))
    ensures var key := Isbn.Normalize(isbn);
      forall i :: (0 <= i < |Sources| && Hit(w.fetch(Sources[i], key))
        && (forall j :: 0 <= j < i ==> !Stores(w.fetch(Sources[j], key)))) ==>
        var data := w.fetch(Sources[i], key).data.value;
        SearchBook(isbn, w) == Success(Lookup(Some(data), None,
          Writes([SearchRecord(key, true, Some(data.dataSource.GetOr("unknown")))], [data], [data])))
    ensures var key := Isbn.Normalize(isbn);
      forall i :: (0 <= i < |Sources| && w.fetch(Sources[i], key).BrokeAfterCreate?
        && (forall j :: 0 <= j < i ==> !Stores(w.fetch(Sources[j], key)))) ==>
        var attempt := w.fetch(Sources[i], key);
        SearchBook(isbn, w) == Success(Lookup(None, Some("Book not found in any source"),
          Writes([SearchRecord(key, false, None)], if attempt.cached then [attempt.row] else [], [attempt.row])))
  {
    ValidationSeesNormalForm(isbn);
    var key := Isbn.Normalize(isbn);
    forall i | 0 <= i < |Sources| && Stores(w.fetch(Sources[i], key))
        && (forall j :: 0 <= j < i ==> !Stores(w.fetch(Sources[j], key)))
      ensures FirstStored(w.fetch, key, Sources) == Some(i)
    {
      var k := FirstStored(w.fetch, key, Sources);
      assert k.Some?;
      assert !(k.value < i) && !(i < k.value);
    }
  }

  /**
    A source that raises is passed over exactly like one that found
    nothing: the call depends on the sources only through what the loop
    makes of their attempts.
  */
  lemma {:induction false} RaisingSourceIsSkipped(isbn: string, w1: World, w2: World)
    requires w1.cache == w2.cache && w1.db == w2.db
    requires forall s: Source :: Effect(w1.fetch(s, Isbn.Normalize(isbn))) == Effect(w2.fetch(s, Isbn.Normalize(isbn)))
    ensures SearchBook(isbn, w1) == SearchBook(isbn, w2)
  {
    var key := Isbn.Normalize(isbn);
    SameEffectsSameFirst(w1.fetch, w2.fetch, key, Sources);
  }

  lemma {:induction false} SameEffectsSameFirst(f1: (Source, string) -> Attempt, f2: (Source, string) -> Attempt, key: string, order: seq<Source>)
    requires forall s: Source :: Effect(f1(s, key)) == Effect(f2(s, key))
    ensures FirstStored(f1, key, order) == FirstStored(f2, key, order)
    ensures FirstStored(f1, key, order).Some? ==>
      f1(order[FirstStored(f1, key, order).value], key) == f2(order[FirstStored(f1, key, order).value], key)
  {
    if order != [] {
      assert Effect(f1(order[0], key)) == Effect(f2(order[0], key));
      SameEffectsSameFirst(f1, f2, key, order[1..]);
    }
  }
}

=== FILE: serializers.dfy ===
/**
  `ISBNValidationSerializer`: the request body check in front of the search
  and validation endpoints. Its one field, `isbn`, is a Django REST framework
  `CharField(max_length=20, required=True)` with the framework's defaults
  (null not allowed, numbers taken as their text, surrounding whitespace
  trimmed, blank not allowed, null characters refused), followed by the
  serializer's own `validate_isbn`, which deletes whitespace and hyphens and
  insists on 10 or 13 remaining characters.
*/
module Serializers {
  import opened Wrappers
  import opened Text
  import Isbn

  /** The field's `max_length`. */
  const MaxLength: nat := 20

  /** The `\0` character the framework's `ProhibitNullCharactersValidator` refuses. */
  const NullChar: char := '\0'

  /**
    What the request body holds under `isbn`. A JSON number arrives as
    `Text` of its Python `str()`, which is how the field reads it.
  */
  datatype FieldValue =
    | Absent          // no `isbn` key
    | Null            // JSON `null`
    | Text(s: string) // a string, or a number's rendering
    | NotText         // a boolean, list or object

  /** The ways the field can be rejected, each with its message. */
  datatype FieldError =
    | Required       // the key is absent
    | NotNull        // JSON `null`
    | NotAString     // a boolean, list or object
    | Blank          // nothing but whitespace (the framework's own check)
    | TooLong        // more than `MaxLength` characters after trimming
    | NullCharacter  // a `\0` in the trimmed value
    | Empty          // `validate_isbn`: "ISBN cannot be empty"
    | WrongLength    // `validate_isbn`: the cleaned value is not 10 or 13 long

  /** The text the framework reports for an error under the field's name. */
  function Message(e: FieldError): (m: string) {
    match e
    case Required => "This field is required."
    case NotNull => "This field may not be null."
    case NotAString => "Not a valid string."
    case Blank => "This field may not be blank."
    case TooLong => "Ensure this field has no more than 20 characters."
    case NullCharacter => "Null characters are not allowed."
    case Empty => "ISBN cannot be empty"
    case WrongLength => "ISBN must be 10 or 13 digits long"
  }

  /** The messages of `errors`, in order: the list the 400 body carries under `isbn`. */
  function Messages(errors: seq<FieldError>): (ms: seq<string>)
    ensures |ms| == |errors|
    ensures forall i :: 0 <= i < |errors| ==> ms[i] == Message(errors[i])
  {
    seq(|errors|, i requires 0 <= i < |errors| => Message(errors[i]))
  }

  /** No two errors share a message, so the body tells every error apart. */
  lemma {:induction false} MessagesDistinct(a: FieldError, b: FieldError)
    ensures Message(a) == Message(b) <==> a == b
  {
  }

  // ---------------------------------------------------------------------------
  // The cleaning step of validate_isbn

  predicate NotSpace(c: char) { !IsSpace(c) }
  predicate NotHyphen(c: char) { c != '-' }
  /** The last step, `.replace(' ', '')`: the space character alone. */
  predicate NotSpaceBar(c: char) { c != ' ' }

  /** What survives cleaning: every character but whitespace and the hyphen. */
  predicate Kept(c: char) { !IsSpace(c) && c != '-' }

  /**
    `''.join(value.split()).replace('-', '').replace(' ', '')`. Joining the
    pieces of a whitespace split with nothing in between deletes every
    whitespace character, so each of the three steps is a filter.
  */
  function Clean(value: string): (r: string)
    ensures |r| <= |value|
    ensures forall i :: 0 <= i < |r| ==> Kept(r[i])
  {
    CleanIsOneFilter(value);
    Filter(Filter(Filter(value, NotSpace), NotHyphen), NotSpaceBar)
  }

  /** The three steps amount to one filter; the last one finds nothing to do. */
  lemma {:induction false} CleanIsOneFilter(value: string)
    ensures Filter(Filter(Filter(value, NotSpace), NotHyphen), NotSpaceBar) == Filter(value, Kept)
  {
    FilterTwice(value, NotSpace, NotHyphen, Kept);
    FilterKeepsAll(Filter(value, Kept), NotSpaceBar);
  }

  /** Cleaning keeps every other character as often as it occurs and drops the rest. */
  lemma {:induction false} CleanCounts(value: string, c: char)
    ensures multiset(Clean(value))[c] == if Kept(c) then multiset(value)[c] else 0
  {
    CleanIsOneFilter(value);
    FilterCount(value, Kept, c);
  }

  /**
    Cleaning works character by character: a kept character passes through
    unchanged, every other one is deleted, and the order is kept.
  */
  lemma {:induction false} CleanPiecewise(a: string, b: string, c: char)
    ensures Clean(a + b) == Clean(a) + Clean(b)
    ensures Clean([c]) == if Kept(c) then [c] else []
  {
    CleanIsOneFilter(a + b);
    CleanIsOneFilter(a);
    CleanIsOneFilter(b);
    CleanIsOneFilter([c]);
    FilterAppend(a, b, Kept);
    assert [c][1..] == [];
  }

  /** The clean values are exactly those without whitespace or hyphens, so cleaning twice changes nothing. */
  lemma {:induction false} CleanFixpoint(value: string)
    ensures Clean(value) == value <==> forall i :: 0 <= i < |value| ==> Kept(value[i])
    ensures Clean(Clean(value)) == Clean(value)
  {
    CleanIsOneFilter(value);
    FilterFixpoint(value, Kept);
    CleanIsOneFilter(Clean(value));
    FilterKeepsAll(Clean(value), Kept);
  }

  /**
    Cleaning deletes nothing `normalize_isbn` would keep: the service sees the
    same ISBN in the cleaned value as in the raw one.
  */
  lemma {:induction false} NormalizeAfterClean(value: string)
    ensures Isbn.Normalize(Clean(value)) == Isbn.Normalize(value)
  {
    CleanIsOneFilter(value);
    NormalizeFilterKept(value);
  }

  lemma {:induction false} NormalizeFilterKept(s: string)
    ensures Isbn.Normalize(Filter(s, Kept)) == Isbn.Normalize(s)
  {
    if s != [] {
      var head := if Kept(s[0]) then [s[0]] else [];
      assert s == [s[0]] + s[1..];
      assert Filter(s, Kept) == head + Filter(s[1..], Kept);
      NormalizeFilterKept(s[1..]);
      Isbn.NormalizeAppend(head, Filter(s[1..], Kept));
      Isbn.NormalizeAppend([s[0]], s[1..]);
      if !Kept(s[0]) {
        assert Isbn.UpperAll([s[0]]) == [s[0]];
        assert Isbn.Normalize([s[0]]) == [];
      }
    }
  }

  // ---------------------------------------------------------------------------
  // validate_isbn and the field

  /**
    `ISBNValidationSerializer.validate_isbn`: rejects a value that is empty or
    all whitespace, then one whose cleaned form is not 10 or 13 characters
    long, and otherwise hands on the cleaned form.
  */
  function ValidateIsbnValue(value: string): (r: Result<string, FieldError>)
    ensures r.Success? || r.error == Empty || r.error == WrongLength
    ensures r == Failure(Empty) <==> forall i :: 0 <= i < |value| ==> IsSpace(value[i])
    ensures r == Failure(WrongLength) <==>
      (exists i :: 0 <= i < |value| && !IsSpace(value[i]))
      && |Filter(value, Kept)| != 10 && |Filter(value, Kept)| != 13
    ensures r.Success? ==>
      && r.value == Filter(value, Kept)
      && (|r.value| == 10 || |r.value| == 13)
  {
    CleanIsOneFilter(value);
    if value == [] || Strip(value) == [] then Failure(Empty)
    else
      var clean := Clean(value);
      if |clean| != 10 && |clean| != 13 then Failure(WrongLength)
      else Success(clean)
  }

  /**
    The `isbn` field as a whole. An absent key, `null` and a non-string
    fail first. A text is trimmed; a blank one fails; otherwise the field's
    validators all run on the trimmed value and every one that fails
    reports, the length limit first and the null-character check second.
    Only a value both pass reaches `validate_isbn`. The accepted value is
    the input with whitespace and hyphens deleted.
  */
  function ValidateField(data: FieldValue): (r: Result<string, seq<FieldError>>)
    ensures data.Absent? ==> r == Failure([Required])
    ensures data.Null? ==> r == Failure([NotNull])
    ensures data.NotText? ==> r == Failure([NotAString])
    ensures data.Text? ==>
      (r == Failure([Blank]) <==> forall i :: 0 <= i < |data.s| ==> IsSpace(data.s[i]))
    ensures data.Text? ==>
      (r.Failure? && TooLong in r.error <==> |Strip(data.s)| > MaxLength)
    ensures data.Text? ==>
      (r.Failure? && NullCharacter in r.error <==> NullChar in data.s)
    ensures data.Text? ==>
      (r.Success? <==>
        && (exists i :: 0 <= i < |data.s| && !IsSpace(data.s[i]))
        && |Strip(data.s)| <= MaxLength
        && NullChar !in data.s
        && (|Filter(data.s, Kept)| == 10 || |Filter(data.s, Kept)| == 13))
    ensures r.Failure? ==> r.error != [] && Empty !in r.error
    ensures r.Success? ==>
      && r.value == Filter(data.s, Kept)
      && (|r.value| == 10 || |r.value| == 13)
  {
    match data
    case Absent => Failure([Required])
    case Null => Failure([NotNull])
    case NotText => Failure([NotAString])
    case Text(raw) =>
      CheckTextBlank(raw);
      CheckTextErrors(raw);
      CheckTextTooLong(raw);
      CheckTextNullCharacter(raw);
      CheckTextAccepts(raw);
      CheckTextValue(raw);
      CheckText(raw)
  }

  /** The field on a text value: trimming, the blank check, the validators, then `validate_isbn`. */
  function CheckText(raw: string): (r: Result<string, seq<FieldError>>) {
    var trimmed := Strip(raw);
    if trimmed == [] then Failure([Blank])
    else
      var errors := Validators(trimmed);
      if errors != [] then Failure(errors)
      else
        match ValidateIsbnValue(trimmed)
        case Failure(e) => Failure([e])
        case Success(value) => Success(value)
  }

  lemma {:induction false} CheckTextBlank(raw: string)
    ensures CheckText(raw) == Failure([Blank]) <==> forall i :: 0 <= i < |raw| ==> IsSpace(raw[i])
  {
    var trimmed := Strip(raw);
    if trimmed != [] {
      CheckTextLater(raw);
    }
  }

  /** Past the blank check, the field fails only with validator errors or a wrong length. */
  lemma {:induction false} CheckTextLater(raw: string)
    requires Strip(raw) != []
    ensures CheckText(raw).Failure? ==>
      && CheckText(raw).error != []
      && forall e :: e in CheckText(raw).error ==> e in {TooLong, NullCharacter, WrongLength}
  {
    var trimmed := Strip(raw);
    if Validators(trimmed) == [] {
      var checked := ValidateIsbnValue(trimmed);
      assert checked.Failure? ==> checked.error in {Empty, WrongLength};
      assert !IsSpace(trimmed[0]);
    }
  }

  lemma {:induction false} CheckTextErrors(raw: string)
    ensures CheckText(raw).Failure? ==> CheckText(raw).error != [] && Empty !in CheckText(raw).error
  {
    if Strip(raw) != [] {
      CheckTextLater(raw);
    }
  }

  /** The validators' errors are reported exactly when they apply; `validate_isbn` adds only its own. */
  lemma {:induction false} CheckTextFromValidators(raw: string)
    requires Strip(raw) != []
    ensures CheckText(raw).Failure? ==>
      CheckText(raw).error == Validators(Strip(raw)) || CheckText(raw).error == [WrongLength]
    ensures Validators(Strip(raw)) != [] ==> CheckText(raw) == Failure(Validators(Strip(raw)))
  {
    var trimmed := Strip(raw);
    if Validators(trimmed) == [] {
      var checked := ValidateIsbnValue(trimmed);
      assert checked.Failure? ==> checked.error in {Empty, WrongLength};
      assert !IsSpace(trimmed[0]);
    }
  }

  lemma {:induction false} CheckTextTooLong(raw: string)
    ensures CheckText(raw).Failure? && TooLong in CheckText(raw).error <==> |Strip(raw)| > MaxLength
  {
    if Strip(raw) != [] {
      CheckTextFromValidators(raw);
    }
  }

  lemma {:induction false} CheckTextNullCharacter(raw: string)
    ensures CheckText(raw).Failure? && NullCharacter in CheckText(raw).error <==> NullChar in raw
  {
    StripKeepsNonSpace(raw, NullChar);
    if Strip(raw) != [] {
      CheckTextFromValidators(raw);
    }
  }

  lemma {:induction false} CheckTextAccepts(raw: string)
    ensures CheckText(raw).Success? <==>
      && (exists i :: 0 <= i < |raw| && !IsSpace(raw[i]))
      && |Strip(raw)| <= MaxLength
      && NullChar !in raw
      && (|Filter(raw, Kept)| == 10 || |Filter(raw, Kept)| == 13)
  {
    var trimmed := Strip(raw);
    StripKeepsNonSpace(raw, NullChar);
    FilterStrip(raw, Kept);
    if trimmed != [] {
      assert !IsSpace(trimmed[0]);
    }
  }

  lemma {:induction false} CheckTextValue(raw: string)
    ensures CheckText(raw).Success? ==>
      && CheckText(raw).value == Filter(raw, Kept)
      && (|CheckText(raw).value| == 10 || |CheckText(raw).value| == 13)
  {
    FilterStrip(raw, Kept);
  }

  /**
    The framework validators of the field on a trimmed, non-blank value, in
    the order they run: the length limit, then the null-character check.
  */
  function Validators(trimmed: string): (errors: seq<FieldError>)
    ensures TooLong in errors <==> |trimmed| > MaxLength
    ensures NullCharacter in errors <==> NullChar in trimmed
    ensures forall e :: e in errors ==> e == TooLong || e == NullCharacter
  {
    (if |trimmed| > MaxLength then [TooLong] else [])
      + (if NullChar in trimmed then [NullCharacter] else [])
  }

  /**
    What the field accepts, the lookup service normalises exactly as it would
    the raw input: validating the request changes no ISBN.
  */
  lemma {:induction false} AcceptedValueNormalizesAsRaw(raw: string)
    ensures ValidateField(Text(raw)).Success? ==>
      Isbn.Normalize(ValidateField(Text(raw)).value) == Isbn.Normalize(raw)
  {
    NormalizeFilterKept(raw);
  }
}

=== FILE: text.dfy ===
/**
  Character classes and the few Python `str` operations the backend relies on:
  whitespace (`str.isspace`, as used by `split()` and `strip()`), decimal digits,
  filtering characters out, `strip()`, and `split(sep)` with its inverse `sep.join`.
*/
module Text {

  /** Python's `str.isspace`: the characters `str.split()` and `str.strip()` drop. */
  predicate IsSpace(c: char) {
    || c == ' '
    || ('\t' <= c <= '\r')                 // tab, line feed, vertical tab, form feed, carriage return
    || ('\U{1C}' <= c <= '\U{1F}')         // file, group, record and unit separators
    || c == '\U{85}' || c == '\U{A0}' || c == '\U{1680}'
    || ('\U{2000}' <= c <= '\U{200A}')
    || c == '\U{2028}' || c == '\U{2029}' || c == '\U{202F}' || c == '\U{205F}' || c == '\U{3000}'
  }

  /** An ASCII decimal digit, the class `[0-9]` of a regular expression. */
  predicate IsDigit(c: char) {
    '0' <= c <= '9'
  }

  function DigitValue(c: char): (d: int)
    requires IsDigit(c)
    ensures 0 <= d <= 9
  {
    c as int - '0' as int
  }

  /** Python `str(d)` for a single decimal digit. */
  function DigitChar(d: int): (c: char)
    requires 0 <= d <= 9
    ensures IsDigit(c) && DigitValue(c) == d
  {
    ('0' as int + d) as char
  }

  // ---------------------------------------------------------------------------
  // Filtering

  /** The characters of `s` that `keep` accepts, in their original order. */
  function Filter(s: string, keep: char -> bool): (r: string)
    ensures |r| <= |s|
    ensures forall i :: 0 <= i < |r| ==> keep(r[i])
  {
    if s == [] then []
    else (if keep(s[0]) then [s[0]] else []) + Filter(s[1..], keep)
  }

  /** Filtering distributes over concatenation: nothing is reordered. */
  lemma {:induction false} FilterAppend(a: string, b: string, keep: char -> bool)
    ensures Filter(a + b, keep) == Filter(a, keep) + Filter(b, keep)
  {
    if a != [] {
      assert (a + b)[1..] == a[1..] + b;
      FilterAppend(a[1..], b, keep);
    } else {
      assert a + b == b;
    }
  }

  /** A string whose every character is kept is left unchanged. */
  lemma {:induction false} FilterKeepsAll(s: string, keep: char -> bool)
    requires forall i :: 0 <= i < |s| ==> keep(s[i])
    ensures Filter(s, keep) == s
  {
    if s != [] {
      FilterKeepsAll(s[1..], keep);
    }
  }

  /** The fixed points of a filter are exactly the strings it keeps whole. */
  lemma {:induction false} FilterFixpoint(s: string, keep: char -> bool)
    ensures Filter(s, keep) == s <==> forall i :: 0 <= i < |s| ==> keep(s[i])
  {
    if forall i :: 0 <= i < |s| ==> keep(s[i]) {
      FilterKeepsAll(s, keep);
    }
  }

  /** Every kept character occurs as often as in the input; every dropped one never. */
  lemma {:induction false} FilterCount(s: string, keep: char -> bool, c: char)
    ensures multiset(Filter(s, keep))[c] == if keep(c) then multiset(s)[c] else 0
  {
    if s != [] {
      FilterCount(s[1..], keep, c);
      assert s == [s[0]] + s[1..];
    }
  }

  /** Two filters in a row are one filter by the conjunction of their tests. */
  lemma {:induction false} FilterTwice(s: string, p: char -> bool, q: char -> bool, both: char -> bool)
    requires forall c :: both(c) == (p(c) && q(c))
    ensures Filter(Filter(s, p), q) == Filter(s, both)
  {
    if s != [] {
      FilterTwice(s[1..], p, q, both);
      var head := if p(s[0]) then [s[0]] else [];
      FilterAppend(head, Filter(s[1..], p), q);
      if p(s[0]) {
        assert Filter(head, q) == Filter(head[1..], q) + (if q(s[0]) then [s[0]] else []);
      }
    }
  }

  // ---------------------------------------------------------------------------
  // strip()

  /** Python `s.lstrip()`: the suffix of `s` after its leading whitespace. */
  function StripStart(s: string): (r: string)
    ensures |r| <= |s| && r == s[|s| - |r|..]
    ensures forall i :: 0 <= i < |s| - |r| ==> IsSpace(s[i])
    ensures r != [] ==> !IsSpace(r[0])
  {
    if s != [] && IsSpace(s[0]) then StripStart(s[1..]) else s
  }

  /** Python `s.rstrip()`: the prefix of `s` before its trailing whitespace. */
  function StripEnd(s: string): (r: string)
    ensures |r| <= |s| && r == s[..|r|]
    ensures forall i :: |r| <= i < |s| ==> IsSpace(s[i])
    ensures r != [] ==> !IsSpace(r[|r| - 1])
  {
    if s != [] && IsSpace(s[|s| - 1]) then StripEnd(s[..|s| - 1]) else s
  }

  /** `r` is `s[i..j]`, and everything of `s` outside `[i, j)` is whitespace. */
  predicate TrimmedTo(s: string, r: string, i: int, j: int) {
    && 0 <= i <= j <= |s| && r == s[i..j]
    && (forall k :: 0 <= k < i ==> IsSpace(s[k]))
    && (forall k :: j <= k < |s| ==> IsSpace(s[k]))
  }

  /** Python `s.strip()`: `StripIsSlice` says what is cut off. */
  function Strip(s: string): (r: string)
    ensures r != [] ==> !IsSpace(r[0]) && !IsSpace(r[|r| - 1])
    ensures r == [] <==> forall i :: 0 <= i < |s| ==> IsSpace(s[i])
  {
    StripBothEnds(s);
    StripEnd(StripStart(s))
  }

  /**
    `strip()` returns a slice of its input, and everything outside the slice
    is whitespace: with the ends of the result not whitespace, this pins the
    result down.
  */
  lemma {:induction false} StripIsSlice(s: string)
    ensures exists i, j :: TrimmedTo(s, Strip(s), i, j)
  {
    var t := StripStart(s);
    var r := StripEnd(t);
    PrefixOfSuffix(s, t, r, |s| - |t|);
    assert Strip(s) == r;
  }

  /** A whitespace-free cut at both ends: a prefix `r` of the suffix `t` of `s`. */
  lemma {:induction false} PrefixOfSuffix(s: string, t: string, r: string, i: nat)
    requires i <= |s| && t == s[i..] && |r| <= |t| && r == t[..|r|]
    requires forall k :: 0 <= k < i ==> IsSpace(s[k])
    requires forall k :: |r| <= k < |t| ==> IsSpace(t[k])
    ensures TrimmedTo(s, r, i, i + |r|)
  {
    forall k | i + |r| <= k < |s|
      ensures IsSpace(s[k])
    {
      assert s[k] == t[k - i];
    }
  }

  lemma {:induction false} StripBothEnds(s: string)
    ensures var r := StripEnd(StripStart(s));
      && (r != [] ==> !IsSpace(r[0]) && !IsSpace(r[|r| - 1]))
      && (r == [] <==> forall i :: 0 <= i < |s| ==> IsSpace(s[i]))
  {
    var t := StripStart(s);
    var r := StripEnd(t);
    if r == [] {
      assert t == [];
    } else {
      assert r[0] == t[0];
      assert !IsSpace(s[|s| - |t|]);
    }
  }

  /** Stripping leaves a string that neither starts nor ends with whitespace unchanged. */
  lemma {:induction false} StripUnchanged(s: string)
    requires s != [] && !IsSpace(s[0]) && !IsSpace(s[|s| - 1])
    ensures Strip(s) == s
  {
    assert StripStart(s) == s;
    assert StripEnd(s) == s;
  }

  /** Stripping is idempotent. */
  lemma {:induction false} StripIdempotent(s: string)
    ensures Strip(Strip(s)) == Strip(s)
  {
    var r := Strip(s);
    if r == [] {
      assert StripStart(r) == [];
      assert StripEnd([]) == [];
    } else {
      StripUnchanged(r);
    }
  }

  /** A character that is not whitespace is in the stripped string exactly when it is in the input. */
  lemma {:induction false} StripKeepsNonSpace(s: string, c: char)
    requires !IsSpace(c)
    ensures c in Strip(s) <==> c in s
  {
    if c in s {
      StripIsSlice(s);
      var i, j :| TrimmedTo(s, Strip(s), i, j);
      var k :| 0 <= k < |s| && s[k] == c;
      NonSpaceInSlice(s, Strip(s), i, j, k);
    } else {
      StripKeepsOut(s, c);
    }
  }

  lemma {:induction false} NonSpaceInSlice(s: string, r: string, i: int, j: int, k: int)
    requires TrimmedTo(s, r, i, j) && 0 <= k < |s| && !IsSpace(s[k])
    ensures s[k] in r
  {
    assert i <= k < j;
    assert r[k - i] == s[k];
  }

  /** Stripping brings no character in. */
  lemma {:induction false} StripKeepsOut(s: string, c: char)
    requires c !in s
    ensures c !in Strip(s)
  {
    StripStartKeepsOut(s, c);
    StripEndKeepsOut(StripStart(s), c);
  }

  lemma {:induction false} StripStartKeepsOut(s: string, c: char)
    requires c !in s
    ensures c !in StripStart(s)
  {
    if s != [] && IsSpace(s[0]) {
      assert forall x :: x in s[1..] ==> x in s;
      StripStartKeepsOut(s[1..], c);
    }
  }

  lemma {:induction false} StripEndKeepsOut(s: string, c: char)
    requires c !in s
    ensures c !in StripEnd(s)
  {
    if s != [] && IsSpace(s[|s| - 1]) {
      assert forall x :: x in s[..|s| - 1] ==> x in s;
      StripEndKeepsOut(s[..|s| - 1], c);
    }
  }


  /** A filter that drops all whitespace cannot tell a string from its stripped form. */
  lemma {:induction false} FilterStrip(s: string, keep: char -> bool)
    requires forall c :: IsSpace(c) ==> !keep(c)
    ensures Filter(Strip(s), keep) == Filter(s, keep)
  {
    FilterStripStart(s, keep);
    FilterStripEnd(StripStart(s), keep);
  }

  lemma {:induction false} FilterStripStart(s: string, keep: char -> bool)
    requires forall c :: IsSpace(c) ==> !keep(c)
    ensures Filter(StripStart(s), keep) == Filter(s, keep)
  {
    if s != [] && IsSpace(s[0]) {
      FilterStripStart(s[1..], keep);
    }
  }

  lemma {:induction false} FilterStripEnd(s: string, keep: char -> bool)
    requires forall c :: IsSpace(c) ==> !keep(c)
    ensures Filter(StripEnd(s), keep) == Filter(s, keep)
  {
    if s != [] && IsSpace(s[|s| - 1]) {
      var init := s[..|s| - 1];
      FilterStripEnd(init, keep);
      assert s == init + [s[|s| - 1]];
      FilterAppend(init, [s[|s| - 1]], keep);
      assert Filter([s[|s| - 1]], keep) == [] + Filter([], keep);
    }
  }

  // ---------------------------------------------------------------------------
  // split(sep) and sep.join(parts)

  /** Python `sep.join(parts)` for a one-character separator. */
  function Join(parts: seq<string>, sep: char): (s: string)
    requires |parts| >= 1
  {
    if |parts| == 1 then parts[0] else parts[0] + [sep] + Join(parts[1..], sep)
  }

  lemma {:induction false} JoinPrepend(parts: seq<string>, c: char, sep: char)
    requires |parts| >= 1
    ensures Join([[c] + parts[0]] + parts[1..], sep) == [c] + Join(parts, sep)
  {
    var q := [[c] + parts[0]] + parts[1..];
    assert q[1..] == parts[1..];
  }

  /** The last part of a join follows the last separator. */
  lemma {:induction false} JoinLast(parts: seq<string>, sep: char)
    requires |parts| >= 2
    ensures Join(parts, sep) == Join(parts[..|parts| - 1], sep) + [sep] + parts[|parts| - 1]
  {
    if |parts| > 2 {
      JoinLast(parts[1..], sep);
      assert parts[1..][..|parts| - 2] == parts[..|parts| - 1][1..];
    }
  }

  /**
    Python `s.split(sep)`: the maximal separator-free pieces of `s`, which
    `sep.join` puts back together; there is one piece more than separators.
  */
  function Split(s: string, sep: char): (parts: seq<string>)
    ensures |parts| >= 1
    ensures forall i :: 0 <= i < |parts| ==> sep !in parts[i]
    ensures Join(parts, sep) == s
    ensures |parts| == 1 <==> sep !in s
  {
    if s == [] then [[]]
    else
      var rest := Split(s[1..], sep);
      if s[0] == sep then
        var parts := [[]] + rest;
        assert parts[1..] == rest;
        assert s == [s[0]] + s[1..];
        parts
      else
        JoinPrepend(rest, s[0], sep);
        var parts := [[s[0]] + rest[0]] + rest[1..];
        assert forall i :: 1 <= i < |parts| ==> parts[i] == rest[i];
        assert s == [s[0]] + s[1..];
        parts
  }

  /** With a separator present, the first piece is the text before the first separator. */
  lemma {:induction false} SplitFirst(s: string, sep: char)
    requires sep in s
    ensures var parts := Split(s, sep);
      |parts[0]| < |s| && s[..|parts[0]|] == parts[0] && s[|parts[0]|] == sep
  {
    var parts := Split(s, sep);
    assert s == parts[0] + [sep] + Join(parts[1..], sep);
  }

  /** With a separator present, the last piece is the text after the last separator. */
  lemma {:induction false} SplitLast(s: string, sep: char)
    requires sep in s
    ensures var parts := Split(s, sep); var last := parts[|parts| - 1];
      |last| < |s| && s[|s| - |last|..] == last && s[|s| - |last| - 1] == sep
  {
    var parts := Split(s, sep);
    var last := parts[|parts| - 1];
    JoinLastPiece(parts, sep, s);
    assert |last| < |s| && s[|s| - |last|..] == last && s[|s| - |last| - 1] == sep;
  }

  lemma {:induction false} JoinLastPiece(parts: seq<string>, sep: char, s: string)
    requires |parts| >= 2 && Join(parts, sep) == s
    ensures var last := parts[|parts| - 1];
      |last| < |s| && s[|s| - |last|..] == last && s[|s| - |last| - 1] == sep
  {
    var last := parts[|parts| - 1];
    JoinLast(parts, sep);
    var front := Join(parts[..|parts| - 1], sep) + [sep];
    assert s == front + last;
    assert s[|front|..] == last;
  }
}

=== FILE: views.dfy ===
/**
  The HTTP endpoints of the books API, as functions from the request's inputs
  (the `isbn` body field or URL segment, the `limit` query parameter, and the
  stored rows) to the status code and JSON envelope they answer with. An
  exception the view does not catch becomes a `ServerError`, which the
  framework turns into status 500. Measured timings are not represented.
*/
module Views {
  import opened Wrappers
  import opened Models
  import Numbers
  import Isbn
  import Serializers
  import Search

  const StatusOk: nat := 200
  const StatusBadRequest: nat := 400
  const StatusNotFound: nat := 404

  /** The payload of an envelope besides its `success` flag. */
  datatype Body =
    | Rejected(message: string, errors: seq<string>)
    | Failed(message: string)
    | FoundBook(book: Book, message: string)
    | BookData(book: Book)
    | Checked(valid: bool, isbn: string, message: string)
    | Listing(count: nat, books: seq<Book>)
    | HistoryPage(total: nat, successful: nat, history: seq<SearchRecord>)

  /**
    A reply with its status code, or the uncaught `ValueError` of `int(char)`
    inside ISBN validation.
  */
  datatype Response = Reply(status: nat, success: bool, body: Body) | ServerError(cause: Isbn.ConversionError)

  /** Python's `message or default`: an absent or empty message gives way to the default. */
  function OrDefault(message: Option<string>, default: string): (r: string)
    ensures message.Some? && message.value != "" ==> r == message.value
    ensures message.None? || message.value == "" ==> r == default
    ensures default != "" ==> r != ""
  {
    match message
    case Some(m) => if m != "" then m else default
    case None => default
  }

  /** The 400 answer to a request body the serializer rejects, with the messages of its errors. */
  function Invalid(e: seq<Serializers.FieldError>): (r: Response) {
    Reply(StatusBadRequest, false, Rejected("Invalid request data", Serializers.Messages(e)))
  }

  // ---------------------------------------------------------------------------
  // POST search/

  /**
    `search_book`: 400 for a bad body, 200 with the book when the lookup
    finds one, otherwise 404 with the lookup's message.
  */
  function SearchBookView(data: Serializers.FieldValue, w: Search.World): (r: Response)
    ensures Serializers.ValidateField(data).Success? ==>
      (r.ServerError? <==> Isbn.ValidateIsbn(Isbn.Normalize(Serializers.ValidateField(data).value)).Failure?)
    ensures Serializers.ValidateField(data).Failure? <==> r.Reply? && r.status == StatusBadRequest
    ensures Serializers.ValidateField(data).Failure? ==>
      r == Reply(StatusBadRequest, false, Rejected("Invalid request data", Serializers.Messages(Serializers.ValidateField(data).error)))
    ensures r.Reply? ==> r.status in {StatusOk, StatusBadRequest, StatusNotFound}
    ensures r.Reply? ==> (r.success <==> r.status == StatusOk)
    ensures r.Reply? && r.status == StatusOk ==>
      r.body.FoundBook? && r.body.message == "Book found successfully"
    ensures r.Reply? && r.status == StatusNotFound ==> r.body.Failed? && r.body.message != ""
  {
    match Serializers.ValidateField(data)
    case Failure(e) => Invalid(e)
    case Success(isbn) => SearchAnswer(Search.SearchBook(isbn, w))
  }

  /** How the search endpoint turns the lookup's outcome into a response. */
  function SearchAnswer(outcome: Result<Search.Lookup, Isbn.ConversionError>): (r: Response)
    ensures r.ServerError? <==> outcome.Failure?
    ensures r.Reply? ==> (r.status == StatusOk <==> outcome.value.book.Some?)
    ensures r.Reply? && outcome.value.book.Some? ==>
      r == Reply(StatusOk, true, FoundBook(outcome.value.book.value, "Book found successfully"))
  {
    match outcome
    case Failure(e) => ServerError(e)
    case Success(lookup) =>
      match lookup.book
      case Some(book) => Reply(StatusOk, true, FoundBook(book, "Book found successfully"))
      case None => Reply(StatusNotFound, false, Failed(OrDefault(lookup.error, "Book not found")))
  }

  /**
    For an accepted body the view answers exactly as the lookup on the raw
    input does: a server error when it raises, the found book with 200, and
    its message with 404.
  */
  lemma {:induction false} SearchViewFollowsLookup(raw: string, w: Search.World)
    ensures var r := SearchBookView(Serializers.Text(raw), w);
      var lookup := Search.SearchBook(raw, w);
      Serializers.ValidateField(Serializers.Text(raw)).Success? ==>
        && (r.ServerError? <==> lookup.Failure?)
        && (lookup.Success? && lookup.value.book.Some? ==>
              r == Reply(StatusOk, true, FoundBook(lookup.value.book.value, "Book found successfully")))
        && (lookup.Success? && lookup.value.book.None? ==>
              r == Reply(StatusNotFound, false, Failed(lookup.value.error.value)))
  {
    var field := Serializers.ValidateField(Serializers.Text(raw));
    if field.Success? {
      var isbn := field.value;
      assert SearchBookView(Serializers.Text(raw), w) == SearchAnswer(Search.SearchBook(isbn, w));
      Serializers.AcceptedValueNormalizesAsRaw(raw);
      Search.SameNormalFormSameLookup(isbn, raw, w);
    }
  }

  // ---------------------------------------------------------------------------
  // POST validate/

  /**
    `validate_isbn`: 400 for a bad body; otherwise 200 with the verdict, the
    normalised ISBN and a message that agrees with the verdict.
  */
  function ValidateIsbnView(data: Serializers.FieldValue): (r: Response)
    ensures Serializers.ValidateField(data).Success? ==>
      (r.ServerError? <==> Isbn.ValidateIsbn(Serializers.ValidateField(data).value).Failure?)
    ensures Serializers.ValidateField(data).Failure? <==> r.Reply? && r.status == StatusBadRequest
    ensures Serializers.ValidateField(data).Failure? ==>
      r == Reply(StatusBadRequest, false, Rejected("Invalid request data", Serializers.Messages(Serializers.ValidateField(data).error)))
    ensures r.Reply? ==> r.status in {StatusOk, StatusBadRequest}
    ensures r.Reply? ==> (r.success <==> r.status == StatusOk)
    ensures r.Reply? && r.status == StatusOk ==>
      && r.body.Checked?
      && (forall i :: 0 <= i < |r.body.isbn| ==> Isbn.IsIsbnChar(r.body.isbn[i]))
      && (r.body.valid <==> r.body.message == "ISBN is valid")
      && (!r.body.valid <==> r.body.message == "Invalid ISBN format")
      && (r.body.valid ==> |r.body.isbn| == 10 || |r.body.isbn| == 13)
  {
    match Serializers.ValidateField(data)
    case Failure(e) => Invalid(e)
    case Success(isbn) =>
      match Isbn.ValidateIsbn(isbn)
      case Failure(e) => ServerError(e)
      case Success(valid) =>
        var message := if valid then "ISBN is valid" else "Invalid ISBN format";
        Reply(StatusOk, true, Checked(valid, Isbn.Normalize(isbn), message))
  }

  /**
    For an accepted body, the verdict is the ISO 2108 check-digit rule on the
    normalised raw input, and the ISBN echoed back is that normal form. The
    request fails with a server error exactly when an `X` stands before the
    check position.
  */
  lemma {:induction false} ValidateViewIsCheckDigitRule(raw: string)
    ensures var r := ValidateIsbnView(Serializers.Text(raw)); var n := Isbn.Normalize(raw);
      Serializers.ValidateField(Serializers.Text(raw)).Success? ==>
        && (r.ServerError? <==> (|n| == 10 && 'X' in n[..9]) || (|n| == 13 && 'X' in n[..12]))
        && (r.Reply? ==> r.body.isbn == n && (r.body.valid <==> Isbn.ValidIsbn10(n) || Isbn.ValidIsbn13(n)))
  {
    var field := Serializers.ValidateField(Serializers.Text(raw));
    if field.Success? {
      Serializers.AcceptedValueNormalizesAsRaw(raw);
      Isbn.ValidateIsbnSpec(field.value);
    }
  }

  // ---------------------------------------------------------------------------
  // GET <isbn>/

  /**
    `get_book_by_isbn`: a stored row under the normalised ISBN is returned
    without any validation; otherwise the full lookup runs, and a miss is 404.
  */
  function GetBookView(isbn: string, w: Search.World): (r: Response)
    ensures Isbn.Normalize(isbn) in w.db ==> r == Reply(StatusOk, true, BookData(w.db[Isbn.Normalize(isbn)]))
    ensures r.Reply? ==> r.status in {StatusOk, StatusNotFound}
    ensures r.Reply? ==> (r.success <==> r.status == StatusOk)
    ensures r.Reply? && r.status == StatusOk ==> r.body.BookData?
    ensures r.Reply? && r.status == StatusNotFound ==>
      && Isbn.Normalize(isbn) !in w.db
      && (Isbn.ValidateIsbn(isbn) == Success(true) ==> Isbn.Normalize(isbn) !in w.cache)
      && r.body.Failed? && r.body.message != ""
    ensures r.ServerError? <==>
      Isbn.Normalize(isbn) !in w.db && Isbn.ValidateIsbn(Isbn.Normalize(isbn)).Failure?
  {
    var key := Isbn.Normalize(isbn);
    Search.SearchSeesNormalForm(isbn, w);
    if key in w.db then Reply(StatusOk, true, BookData(w.db[key]))
    else
      match Search.SearchBook(key, w)
      case Failure(e) => ServerError(e)
      case Success(lookup) =>
        match lookup.book
        case Some(book) => Reply(StatusOk, true, BookData(book))
        case None => Reply(StatusNotFound, false, Failed(OrDefault(lookup.error, "Book not found")))
  }

  /**
    Without a stored row, the endpoint finds a book exactly when the lookup
    does, and the same one; a miss is 404 with the lookup's message.
  */
  lemma {:induction false} GetBookFallsBackToLookup(isbn: string, w: Search.World)
    requires Isbn.Normalize(isbn) !in w.db
    ensures var r := GetBookView(isbn, w); var lookup := Search.SearchBook(isbn, w);
      && (r.ServerError? <==> lookup.Failure?)
      && (lookup.Success? ==> (r.Reply? && r.status == StatusOk <==> lookup.value.book.Some?))
      && (lookup.Success? && lookup.value.book.Some? ==> r.body == BookData(lookup.value.book.value))
      && (lookup.Success? && lookup.value.book.None? ==>
            r == Reply(StatusNotFound, false, Failed(lookup.value.error.value)))
  {
    Search.SearchSeesNormalForm(isbn, w);
  }

  // ---------------------------------------------------------------------------
  // The `limit` query parameter of recent/ and history/

  const RecentDefault: int := 20
  const RecentCap: int := 100
  const HistoryDefault: int := 50
  const HistoryCap: int := 200

  /**
    `int(request.GET.get('limit', default))` capped at `cap`, falling back to
    `default` when the text is not an integer. The absent parameter is the
    integer `default` itself.
  */
  function ClampLimit(param: Option<string>, default: int, cap: int): (limit: int)
    requires default <= cap
    ensures limit <= cap
    ensures param.None? ==> limit == default
    ensures param.Some? && Numbers.ParseInt(param.value).None? ==> limit == default
    ensures param.Some? && Numbers.ParseInt(param.value).Some? ==>
      limit <= Numbers.ParseInt(param.value).value
      && (limit == cap || limit == Numbers.ParseInt(param.value).value)
  {
    match param
    case None => if default < cap then default else cap
    case Some(text) =>
      match Numbers.ParseInt(text)
      case None => default
      case Some(n) => if n < cap then n else cap
  }

  /**
    A `limit` with an information separator (U+001C to U+001F) at either end
    is not an integer to `int()`, although `str.strip()` would remove it: the
    default applies.
  */
  lemma {:induction false} SeparatorLimitFallsBack(text: string, default: int, cap: int)
    requires default <= cap
    requires text != [] && (Numbers.IsSeparator(text[0]) || Numbers.IsSeparator(text[|text| - 1]))
    ensures ClampLimit(Some(text), default, cap) == default
  {
    Numbers.SeparatorAtEndRefused(text);
  }

  /**
    The decimal rendering of an integer of at most `Numbers.MaxStrDigits`
    digits is read back, then capped; a longer one is refused, and the
    default applies.
  */
  lemma {:induction false} LimitOfNumber(n: int, default: int, cap: int)
    requires default <= cap
    ensures var m: nat := if n < 0 then -n else n;
      ClampLimit(Some(Numbers.ShowInt(n)), default, cap) ==
        if |Numbers.ShowNat(m)| > Numbers.MaxStrDigits then default
        else if n < cap then n else cap
  {
    Numbers.ParseShowInt(n);
  }

  /** The first `limit` rows, as `queryset[:limit]` with a bound that is not negative. */
  function Page<T>(rows: seq<T>, limit: nat): (r: seq<T>)
    ensures r <= rows && |r| == if limit < |rows| then limit else |rows|
  {
    if limit < |rows| then rows[..limit] else rows
  }

  // ---------------------------------------------------------------------------
  // GET recent/

  /**
    `list_recent_books`: the newest books, at most 100, with their count.
    `books` is the table in its default order, newest first. A negative
    `limit` is outside the model (`None`).
  */
  function ListRecentBooks(param: Option<string>, books: seq<Book>): (r: Option<Response>)
    ensures r.None? <==> ClampLimit(param, RecentDefault, RecentCap) < 0
    ensures r.Some? ==>
      && r.value.Reply? && r.value.status == StatusOk && r.value.success && r.value.body.Listing?
      && r.value.body.books <= books
      && r.value.body.count == |r.value.body.books| <= RecentCap
    ensures var limit := ClampLimit(param, RecentDefault, RecentCap);
      r.Some? ==> |r.value.body.books| == if limit < |books| then limit else |books|
  {
    var limit := ClampLimit(param, RecentDefault, RecentCap);
    if limit < 0 then None
    else
      var page := Page(books, limit);
      Some(Reply(StatusOk, true, Listing(|page|, page)))
  }

  /** Without a usable parameter the endpoint lists the newest 20 books, or all of fewer. */
  lemma {:induction false} RecentDefaultsToTwenty(param: Option<string>, books: seq<Book>)
    requires param.None? || Numbers.ParseInt(param.value).None?
    ensures var n := if |books| < 20 then |books| else 20;
      ListRecentBooks(param, books) == Some(Reply(StatusOk, true, Listing(n, books[..n])))
  {
    assert books[..|books|] == books;
  }

  // ---------------------------------------------------------------------------
  // GET history/

  /** How many of the records are for searches that found a book. */
  function CountFound(history: seq<SearchRecord>): (n: nat)
    ensures n <= |history|
    ensures n == 0 <==> forall i :: 0 <= i < |history| ==> !history[i].found
    ensures n == |history| <==> forall i :: 0 <= i < |history| ==> history[i].found
  {
    if history == [] then 0
    else (if history[0].found then 1 else 0) + CountFound(history[1..])
  }

  /** Counting is additive over any split of the log. */
  lemma {:induction false} CountFoundAppend(a: seq<SearchRecord>, b: seq<SearchRecord>)
    ensures CountFound(a + b) == CountFound(a) + CountFound(b)
  {
    if a != [] {
      assert (a + b)[1..] == a[1..] + b;
      CountFoundAppend(a[1..], b);
    } else {
      assert a + b == b;
    }
  }

  /**
    `search_history`: the newest records, at most 200, and the counts of all
    searches and of successful ones over the whole log, not only the page.
    A negative `limit` is outside the model (`None`).
  */
  function SearchHistoryView(param: Option<string>, history: seq<SearchRecord>): (r: Option<Response>)
    ensures r.None? <==> ClampLimit(param, HistoryDefault, HistoryCap) < 0
    ensures r.Some? ==>
      && r.value.Reply? && r.value.status == StatusOk && r.value.success && r.value.body.HistoryPage?
      && r.value.body.history <= history && |r.value.body.history| <= HistoryCap
      && r.value.body.total == |history|
      && r.value.body.successful == CountFound(history)
    ensures var limit := ClampLimit(param, HistoryDefault, HistoryCap);
      r.Some? ==> |r.value.body.history| == if limit < |history| then limit else |history|
  {
    var limit := ClampLimit(param, HistoryDefault, HistoryCap);
    if limit < 0 then None
    else
      var page := Page(history, limit);
      Some(Reply(StatusOk, true, HistoryPage(|history|, CountFound(history), page)))
  }

  /** Without a usable parameter the endpoint shows the newest 50 records, or all of fewer. */
  lemma {:induction false} HistoryDefaultsToFifty(param: Option<string>, history: seq<SearchRecord>)
    requires param.None? || Numbers.ParseInt(param.value).None?
    ensures var n := if |history| < 50 then |history| else 50;
      SearchHistoryView(param, history) ==
        Some(Reply(StatusOk, true, HistoryPage(|history|, CountFound(history), history[..n])))
  {
    assert history[..|history|] == history;
  }

  /**
    Every lookup that returns is counted once in the statistics, and as a
    success exactly when it found a book.
  */
  lemma {:induction false} LookupIsCountedOnce(isbn: string, w: Search.World, history: seq<SearchRecord>)
    requires Search.SearchBook(isbn, w).Success?
    ensures var lookup := Search.SearchBook(isbn, w).value;
      var after := lookup.writes.history + history;
      var before := SearchHistoryView(None, history);
      var now := SearchHistoryView(None, after);
      && before.Some? && now.Some?
      && now.value.body.total == before.value.body.total + 1
      && now.value.body.successful == before.value.body.successful + (if lookup.book.Some? then 1 else 0)
  {
    var lookup := Search.SearchBook(isbn, w).value;
    CountFoundAppend(lookup.writes.history, history);
    assert CountFound(lookup.writes.history) == if lookup.writes.history[0].found then 1 else 0 by {
      assert lookup.writes.history[1..] == [];
    }
  }
}

=== FILE: wrappers.dfy ===
/** Option and Result: Python's `None`-or-value and value-or-exception, made explicit. */
module Wrappers {

  /** A value that may be missing (Python `None`). */
  datatype Option<+T> = None | Some(value: T) {

    /** The value, or `default` when missing (Python `d.get(k, default)`). */
    function GetOr(default: T): T {
      match this
      case Some(v) => v
      case None => default
    }
  }

  /** Either a returned value or the exception the call raised. */
  datatype Result<+R, +E> = Success(value: R) | Failure(error: E)
}
